=== FILE: README.md ===
# Mapping paginator, modelled in Dafny

This project models `copy_mapping_with_query` from morph-kgc's mapping paginator
(`src/morph_kgc/mapping/mapping_paginator.py`) and proves properties of the model.
The function rewrites an RML mapping document. Every triples map whose logical
source counts more than 10000 rows is replaced by one triples map per worker,
named `<tm>_Page<i+1>`. Each page map has a fresh logical source whose
`rml:query` is a `LIMIT`/`OFFSET` slice of the original query, plus its own
clone of the subject map and predicate-object map. Every other triples map is
carried over with its subject map and predicate-object map: each such node is
copied with its own triples and the blank-node subgraph below it, with fresh
blank nodes.

Modules, one per concern of the source:

- `Rdf` (`rdf.dfy`): terms, triples, and the RML predicates used. It also defines
  `FirstObject`, which plays the role of `next(g.objects(s, p), None)`.
- `Decimal` (`decimal.dfy`): how Python's f-strings print a natural number, and
  how that text is read back.
- `QueryDeriver` (`query_deriver.dfy`): `generate_query_from_table_name`. This is
  `str.strip`, `str.split('.')`, doubling of `"` and quoting. It also has a reader
  for quoted identifiers, which shows that the derived query cannot be escaped
  from.
- `Pagination` (`pagination.dfy`): the threshold, `pagination_creator`, the page
  plan, and the page query text.
- `Cloner` (`cloner.dfy`): `copy_recursive_with_new_bnodes`. It clones the
  subgraph reachable through blank nodes and renames each blank node through a
  map that the caller owns.
- `Rewriter` (`rewriter.dfy`): the main loop over triples maps, page emission,
  the carry-over queue, and the final carry-over pass.

Inputs that the source gets from outside the process are parameters here:

- The row count of a query (`row_counter`, a database round trip) is `rows: string -> nat`.
- The number of cores (`cpu_count`) is `cores`, with `cores >= 1`.
- The blank-node supply is a counter `next`. The theorems ask that it start above
  every blank node of the input.

The input document is a sequence of triples in the order the store lists them.
The output document is a set.

Four things about the source's behaviour are worth knowing. They are not
treated as bugs.

- **A dropped `LIMIT` does no harm.** A page's query drops `LIMIT` when
  `offset + limit >= total`. This can hold for more than one page when `cores`
  does not divide the row count well, for example 10001 rows on 10000 cores.
  Even so, a page without `LIMIT` selects exactly the rows
  `[i*limit, min((i+1)*limit, total))`, the same as if it had kept the clause
  (`Pagination.WindowIsSlice`). Every later unbounded page starts at or past the
  last row, so it selects nothing (`Pagination.UnboundedPagesAfterFirstAreEmpty`).
  The windows cover every row exactly once (`Pagination.PagesCover`,
  `Pagination.PagesDisjoint`).
- **Blank objects of the logical source are shared.** A page's logical source
  copies the original's predicate-objects as they are (lines 130-132). A blank
  object there is therefore referenced, not cloned, and its own triples are not
  copied for the page.
- **Only one map of each kind is read.** Only the first `rml:subjectMap` and the
  first `rml:predicateObjectMap` of a triples map are read (lines 94-95). A page
  therefore links to, and clones, only that one predicate-object map. A
  carried-over triples map is different: cloning it copies every triple whose
  subject it is, so all its `rml:predicateObjectMap` links are kept, and a blank
  extra predicate-object map is cloned in full through them. Only a named extra
  predicate-object map loses its own triples there, since it is linked and not
  queued (see the next point). None of this matters for normalized mapping
  documents, where each triples map has one of each.
- **Named nodes are linked, not copied.** A clone copies the triples whose
  subject is the cloned node and recurses only into blank objects (lines 49-55).
  A named node that a copied triple points at, such as a named logical source
  or a named object map, keeps its link in the output. Its own triples are
  copied only if it is queued itself, and only triples maps, subject maps and
  predicate-object maps are queued. Every triple a clone adds has as subject
  either the cloned node or a blank node (`Cloner.NamedObjectLinkedOnly`). So
  cloning a triples map `<tm>` whose logical source is the named `<ls>` copies
  the triple `<tm> rml:logicalSource <ls>`, but not the triples of `<ls>`
  (`Cloner.NamedSourceExample`).

## Model

| member | source | states |
|---|---|---|
| Rdf.BlankTextInjective | src/morph_kgc/mapping/mapping_paginator.py:127 | the text of a blank node, used to name the pages of a blank triples map, differs for different blank nodes |
| Rdf.FirstObject | src/morph_kgc/mapping/mapping_paginator.py:93-99 | `next(g.objects(s, p), None)` is absent exactly when no triple has subject `s` and predicate `p`; otherwise it is the object of the first such triple in store order |
| Decimal.NatToString | src/morph_kgc/mapping/mapping_paginator.py:121-127 | an integer formatted into an f-string is a non-empty run of digits with no leading zero |
| Decimal.ParsePrinted | src/morph_kgc/mapping/mapping_paginator.py:121-127 | the printed number reads back as the number |
| Decimal.PrintedInjective | src/morph_kgc/mapping/mapping_paginator.py:123-127 | different numbers print differently |
| QueryDeriver.Strip | src/morph_kgc/mapping/mapping_paginator.py:60 | `str.strip()` is the input with only Python white space cut from both ends, and the result neither starts nor ends with white space |
| QueryDeriver.StripIdempotent | src/morph_kgc/mapping/mapping_paginator.py:60-63 | stripping a part that was already stripped changes nothing |
| QueryDeriver.Split | src/morph_kgc/mapping/mapping_paginator.py:62 | `split('.')` yields at least one part, and no part contains the separator |
| QueryDeriver.JoinSplit | src/morph_kgc/mapping/mapping_paginator.py:62-64 | joining the parts of a split with the same separator gives back the string |
| QueryDeriver.SplitJoin | src/morph_kgc/mapping/mapping_paginator.py:62-64 | splitting a join of separator-free parts gives back the parts |
| QueryDeriver.TableQuery | src/morph_kgc/mapping/mapping_paginator.py:59-67 | the derived query is `SELECT * FROM ` followed by a non-empty identifier |
| QueryDeriver.TableIdentifier | src/morph_kgc/mapping/mapping_paginator.py:60-66 | whether or not the name has a `.`, the identifier opens and closes with a double quote; `TableIdentifierUniform` gives its reference definition |
| QueryDeriver.TableIdentifierUniform | src/morph_kgc/mapping/mapping_paginator.py:61-66 | the dotted and undotted branches agree: both quote each stripped `.`-segment of the stripped name and join with `.` |
| QueryDeriver.QuotePartsIsQuoteAll | src/morph_kgc/mapping/mapping_paginator.py:63 | the list comprehension strips each part, then quotes it |
| QueryDeriver.ReadEscaped | src/morph_kgc/mapping/mapping_paginator.py:63-66 | reading a part whose quotes were doubled stops exactly at its closing quote and gives back the part |
| QueryDeriver.ParseQuotedJoin | src/morph_kgc/mapping/mapping_paginator.py:63-64 | a `.`-join of quoted parts with doubled quotes reads back as exactly those parts, whatever characters they hold |
| QueryDeriver.DerivedQueryReadsBack | src/morph_kgc/mapping/mapping_paginator.py:59-67 | the identifier after `SELECT * FROM ` reads back as exactly the table name's stripped parts, so a quote or dot in the name cannot break out of the identifier |
| QueryDeriver.DerivedQueryInjective | src/morph_kgc/mapping/mapping_paginator.py:59-67 | table names with different parts give different queries |
| QueryDeriver.IdentifierOfTrimmedParts | src/morph_kgc/mapping/mapping_paginator.py:60-66 | when neither the name nor any of its `.`-segments has white space at either end, the identifier is the segments quoted as they stand and joined with `.` |
| QueryDeriver.QualifiedNameIdentifier | src/morph_kgc/mapping/mapping_paginator.py:60-64 | a name `schema.table` of two plain parts is quoted part by part as `"schema"."table"` |
| QueryDeriver.SchemaQualifiedExample | src/morph_kgc/mapping/mapping_paginator.py:59-67 | `public.orders` gives `SELECT * FROM "public"."orders"` |
| QueryDeriver.EmbeddedQuoteIdentifier | src/morph_kgc/mapping/mapping_paginator.py:60-66 | a double quote between two plain parts is doubled inside one quoted identifier |
| QueryDeriver.EmbeddedQuoteExample | src/morph_kgc/mapping/mapping_paginator.py:60-66 | `My"Table` gives the identifier `"My""Table"` |
| Pagination.PageLimit | src/morph_kgc/mapping/mapping_paginator.py:34-35 | `ceil(total / cores)`: the page size covers every row on `cores` pages, and one less would not |
| Pagination.PageLimitUnique | src/morph_kgc/mapping/mapping_paginator.py:34-35 | the two bounds define the ceiling uniquely |
| Pagination.PageAt | src/morph_kgc/mapping/mapping_paginator.py:120-125 | page `i` has offset `i*limit` and no LIMIT exactly when `offset + limit >= total` |
| Pagination.MakePlan | src/morph_kgc/mapping/mapping_paginator.py:115-125 | a source is paginated exactly when it counts more than 10000 rows, into exactly `cores` pages indexed `0..cores-1`, each with offset `i*limit` and a LIMIT of `limit` unless `offset + limit >= total` |
| Pagination.WindowIsSlice | src/morph_kgc/mapping/mapping_paginator.py:120-125 | page `i` selects exactly rows `[i*limit, min((i+1)*limit, total))`, with or without its LIMIT |
| Pagination.PagesCover | src/morph_kgc/mapping/mapping_paginator.py:117-125 | every row of the source is selected by some page |
| Pagination.PagesDisjoint | src/morph_kgc/mapping/mapping_paginator.py:117-125 | no row is selected by two pages |
| Pagination.UnboundedPagesAfterFirstAreEmpty | src/morph_kgc/mapping/mapping_paginator.py:121-123 | if page `i` drops its LIMIT, every later page starts at or past the last row |
| Pagination.PageQueryReadsBack | src/morph_kgc/mapping/mapping_paginator.py:122-125 | the text appended to the query reads back as the page's LIMIT (or its absence) and OFFSET |
| Pagination.PageQuery | src/morph_kgc/mapping/mapping_paginator.py:122-125 | a page's query is the source query with a clause appended; `PageQueryReadsBack` shows the clause reads back as the page's window |
| Pagination.PageQueryShape | src/morph_kgc/mapping/mapping_paginator.py:121-125 | page `i`'s query is `q OFFSET o` when `o + limit >= total`, else `q LIMIT limit OFFSET o`, with `o = i*limit` |
| Pagination.PageQueriesDistinct | src/morph_kgc/mapping/mapping_paginator.py:122-125 | pages with different windows get different query texts |
| Pagination.PlanExample | src/morph_kgc/mapping/mapping_paginator.py:115-125 | 25000 rows on 4 cores: page size 6250, offsets 0, 6250, 12500 and 18750, and only the last page has no LIMIT |
| Pagination.PageQueryExample | src/morph_kgc/mapping/mapping_paginator.py:124-125 | the second of those pages reads `SELECT * FROM t LIMIT 6250 OFFSET 6250` |
| Pagination.ThresholdExample | src/morph_kgc/mapping/mapping_paginator.py:115-117 | 10000 rows are not paginated; 10001 rows on 4 cores give pages of 2501 |
| Cloner.CloneTerm | src/morph_kgc/mapping/mapping_paginator.py:40-57 | the map only grows and new entries take fresh identities. A mapped blank node returns its clone and changes nothing. A new blank node becomes `Blank(next)`. A named node is its own clone. Every new output triple is the image of an input triple whose subject is the node or a blank node the call mapped for the first time, and the node and every newly mapped node have all their triples copied. The call terminates on cyclic graphs |
| Cloner.Register | src/morph_kgc/mapping/mapping_paginator.py:44-45 | a new blank node gets the next identity before its triples are walked, and the map stays one-to-one |
| Cloner.CloneEdges | src/morph_kgc/mapping/mapping_paginator.py:49-55 | every triple of the subject from the current position on is copied under the final map |
| Cloner.CopyEdge | src/morph_kgc/mapping/mapping_paginator.py:50-55 | one triple is copied: its subject renamed through the map, its blank object cloned, and other objects kept |
| Cloner.CloneClosed | src/morph_kgc/mapping/mapping_paginator.py:40-57 | if every mapped blank node has its triples copied before a clone, that still holds after it, and the cloned node's subgraph is copied too |
| Cloner.CloneAllocates | src/morph_kgc/mapping/mapping_paginator.py:44-45 | a clone writes only blank nodes it allocated |
| Cloner.GrowsAllocates | src/morph_kgc/mapping/mapping_paginator.py:44-55 | any growth step writes only blank nodes taken from the counter since the map was started |
| Cloner.SeparateClonesDisjoint | src/morph_kgc/mapping/mapping_paginator.py:40-57 | two clone operations run one after the other on one counter, each with its own empty map, write no blank node in common |
| Cloner.NamedObjectLinkedOnly | src/morph_kgc/mapping/mapping_paginator.py:49-55 | for any graph, a clone adds no triple whose subject is a named node other than the cloned node, so a named node it links to keeps its own triples out of the clone |
| Cloner.NamedSourceExample | src/morph_kgc/mapping/mapping_paginator.py:49-55 | cloning a triples map whose logical source is a named node copies the link and none of the logical source's own triples |
| Cloner.SharingPreserved | src/morph_kgc/mapping/mapping_paginator.py:41-43 | two triples with the same blank object get the same clone, and that clone stands for no other input node |
| Cloner.CloneInjective | src/morph_kgc/mapping/mapping_paginator.py:44-45 | the map of one clone is one-to-one, and its identities are below the counter |
| Rewriter.RuleSubjects | src/morph_kgc/mapping/mapping_paginator.py:92 | the triples maps visited are exactly the subjects of `rml:logicalSource` triples |
| Rewriter.ReadRule | src/morph_kgc/mapping/mapping_paginator.py:93-95 | each of a triples map's logical source, subject map and predicate-object map is the object of the first triple of the map with that predicate in store order; a subject map or predicate-object map is absent exactly when the map has no such triple |
| Rewriter.SourceQuery | src/morph_kgc/mapping/mapping_paginator.py:98-110 | the source query is the `rml:query` if there is one, else the query derived from `rml:tableName`, else nothing |
| Rewriter.Decide | src/morph_kgc/mapping/mapping_paginator.py:101-118 | a triples map is paginated exactly when it has a source query counting more than 10000 rows, and then its plan is the page plan of that count |
| Rewriter.NoQueryNoCount | src/morph_kgc/mapping/mapping_paginator.py:105-110 | a triples map with neither `rml:query` nor `rml:tableName` is carried over, whatever the row counter returns; no count is used |
| Rewriter.DecisionByCount | src/morph_kgc/mapping/mapping_paginator.py:112-118 | the decision depends on the row counter only through the count of the map's own query |
| Rewriter.EmitSource | src/morph_kgc/mapping/mapping_paginator.py:128-135 | a page's new logical source has every predicate-object of the original except `rml:query`, and exactly one `rml:query`: the page query. It is linked from the page's triples map, and nothing else is added |
| Rewriter.CloneLinked | src/morph_kgc/mapping/mapping_paginator.py:138-143 | a present map is cloned in full and linked from the page's triples map by the same predicate |
| Rewriter.ClonePageMaps | src/morph_kgc/mapping/mapping_paginator.py:137-143 | a page's subject map and predicate-object map are both cloned in full under the page's own map, and both links are in the output |
| Rewriter.EmitPage | src/morph_kgc/mapping/mapping_paginator.py:121-143 | after one page, the page's triples map is in the output with its logical source and its cloned maps. Every blank subject it adds is fresh, and the page owns the identities drawn for it: its logical source and every copy of its one-to-one clone map are numbered from the counter's value before the page to its value after |
| Rewriter.PageEmittedKept | src/morph_kgc/mapping/mapping_paginator.py:120-157 | later additions, whose blank subjects are all fresher, leave an emitted page intact; a page that owns a range of identities owns any wider range |
| Rewriter.EmitPages | src/morph_kgc/mapping/mapping_paginator.py:120-143 | every page of the plan is emitted, and any two pages own disjoint identity ranges, because each page starts a new map (line 137) and draws after the previous one |
| Rewriter.PagesApartKept | src/morph_kgc/mapping/mapping_paginator.py:120-157 | two pages, of one triples map or of two, with disjoint identity ranges stay so as later, fresher triples are added |
| Rewriter.ApartPagesShareNothing | src/morph_kgc/mapping/mapping_paginator.py:128-143 | two pages, of one triples map or of two, with disjoint identity ranges link to different logical sources, and their clone maps have no copy in common, so a blank subject map or predicate-object map gets a separate clone in each page |
| Rewriter.Queue | src/morph_kgc/mapping/mapping_paginator.py:107 | adding to `uris_to_copy` adds exactly that node |
| Rewriter.QueueIfPresent | src/morph_kgc/mapping/mapping_paginator.py:108-109 | a subject map or predicate-object map is queued exactly when it is present |
| Rewriter.QueueRule | src/morph_kgc/mapping/mapping_paginator.py:107-109 | the triples map, its subject map and its predicate-object map (when present) are queued, and nothing else |
| Rewriter.ProcessRule | src/morph_kgc/mapping/mapping_paginator.py:92-149 | a carried-over triples map is queued with its maps. A paginated one is recorded as paginated and all its pages are emitted |
| Rewriter.ProcessRules | src/morph_kgc/mapping/mapping_paginator.py:92-149 | after the loop, every triples map is recorded as its decision says. Only paginated maps are recorded as paginated, and only what carried-over maps queued is queued. The pages of a map visited earlier own identities below those of every map visited later |
| Rewriter.RulesApartKept | src/morph_kgc/mapping/mapping_paginator.py:120-157 | the pages of two triples maps whose identity ranges are split by one point stay apart as later, fresher triples are added |
| Rewriter.RulePassApart | src/morph_kgc/mapping/mapping_paginator.py:92-143 | after the loop, the pages of two different triples maps are apart, the map visited first below |
| Rewriter.DistinctRulePagesApart | src/morph_kgc/mapping/mapping_paginator.py:92-157 | in the output, any page of one paginated triples map and any page of a different one own disjoint identity ranges, so they share no logical source and no cloned blank node |
| Rewriter.CarryOverPass | src/morph_kgc/mapping/mapping_paginator.py:154-157 | every queued node that is not a paginated triples map has its whole subgraph copied under the one shared map, and every named subject the pass adds is such a node: paginated triples maps are skipped |
| Rewriter.CarryOverSkipsPaginated | src/morph_kgc/mapping/mapping_paginator.py:154-157 | in the whole rewrite, every triple the carry-over pass adds with a named subject has a queued node that is not a paginated triples map as subject, so a named paginated triples map is never copied next to its pages |
| Rewriter.Rewrite | src/morph_kgc/mapping/mapping_paginator.py:86-157 | when the counter starts above every blank node of the input, the output uses only blank nodes below the final counter; every carried-over node that is not a paginated triples map is copied in full under the shared map, which stays closed and one-to-one |
| Rewriter.RuleDispatch | src/morph_kgc/mapping/mapping_paginator.py:101-149 | a triples map is paginated exactly when its decision is to paginate; otherwise it is queued with its subject map and predicate-object map |
| Rewriter.PaginatedAreRules | src/morph_kgc/mapping/mapping_paginator.py:118 | only triples maps whose decision is to paginate are recorded as paginated |
| Rewriter.CarryOverOnlyRules | src/morph_kgc/mapping/mapping_paginator.py:105-110 | everything queued for the carry-over pass is a carried-over triples map, its subject map or its predicate-object map |
| Rewriter.CarriedDone | src/morph_kgc/mapping/mapping_paginator.py:154-157 | a queued node that is not a paginated triples map is copied in full |
| Rewriter.CarriedRuleCopied | src/morph_kgc/mapping/mapping_paginator.py:145-157 | a carried-over triples map is copied in full, and so are its subject map and predicate-object map unless they are themselves paginated triples maps |
| Rewriter.PaginatedRuleExpanded | src/morph_kgc/mapping/mapping_paginator.py:115-143 | a paginated triples map has all `cores` pages in the output. Page `i` is named `<tm>_Page<i+1>`, has offset `i*limit`, has a logical source carrying the page's query, and links to complete clones of the subject and predicate-object maps. Its blank nodes are numbered below some `b`, and the carry-over pass numbers its one-to-one clones from `b` on |
| Rewriter.RulePagesPlaced | src/morph_kgc/mapping/mapping_paginator.py:120-157 | all pages of a paginated triples map sit in the output between the starting counter and some `b`, pairwise apart, and the carry-over map allocates at or above `b` |
| Rewriter.PaginatedPagesApart | src/morph_kgc/mapping/mapping_paginator.py:120-143 | in the output, two different pages of one paginated triples map own disjoint identity ranges |
| Rewriter.OutputFresh | src/morph_kgc/mapping/mapping_paginator.py:128 | the counter only moves forward, and the output uses no blank node at or above it |
| Rewriter.PageName | src/morph_kgc/mapping/mapping_paginator.py:127 | a page's name is an IRI that starts with the text of its triples map followed by `_Page` |
| Rewriter.PageNamesDistinct | src/morph_kgc/mapping/mapping_paginator.py:127 | the pages of one triples map get distinct names |

## Left out

- `row_counter` (lines 18-29) is not modelled. It opens a database connection and returns 0 on any failure. Its result is the parameter `rows`, and a failed count is the caller passing 0.
- `cores_number_obtainer` (lines 31-32) is not modelled. `multiprocessing.cpu_count()` is the parameter `cores`. The model assumes the count is the same for every triples map, and at least 1.
- Reading the configuration file (lines 76-79), parsing and serializing Turtle, and binding prefixes (lines 73-84, 160) are I/O and are not modelled. So are the final `print` and the `__main__` block (lines 161-167).
- Pagination.PageLimit: `math.ceil` of a floating-point quotient is modelled as the exact integer ceiling. The two differ once row counts pass 2^53.
- Row order: the windows are proved to tile `[0, total)` of one fixed result order. The source's queries have no `ORDER BY`, so a database may return rows in a different order for each page. The model does not cover that.
- Blank-node identity: rdflib's `BNode()` draws a random identifier. The model draws from a counter, and the theorems ask that it start above every blank node of the input. `str(tm)` of a blank triples map is modelled as `N` plus its number.
- Python truthiness: `if query_obj:`, `if table_obj:`, `if sm:` and `if pom:` are modelled as "present". An empty literal or an empty IRI, which Python treats as false, is treated as present.
- Literal truthiness: rdflib also treats a literal whose value is 0 or false as false, so such an `rml:query` or `rml:tableName` would be skipped by the source. The model has no literal values, only lexical forms, and treats it as present.
- Recursion depth: the source's recursive clone raises `RecursionError` once blank nodes nest deeper than Python's recursion limit, about 1000 frames. The model has no depth bound; its clone always finishes.
- Rewriter.CarryOverSkipsPaginated: stated for named subjects only. A blank paginated triples map that another carried-over map uses as its subject map or predicate-object map is reached as a blank object by that map's clone and copied, in the source as in the model, so the skip on line 156 has no visible effect for it.
- Set order: `uris_to_copy` is a Python set, and its iteration order is not specified. The model keeps insertion order. The properties proved about the carry-over pass do not depend on that order.
- Rewriter.Rewrite: the output is proved to contain every page and every carried-over node's subgraph. The converse, that it holds nothing else, is proved only in parts. `EmitSource` adds only the page's logical source and its link, the carry-over pass adds no triple with a named paginated triples map as subject (`CarryOverSkipsPaginated`), and every triple a clone adds is the image of an input triple whose subject is the cloned node or a blank node first met by that clone. No single theorem states it for the whole output.
- Cloner.CloneTerm: the clone is proved to copy every reachable triple under a one-to-one renaming, and every triple it adds comes from an input triple whose subject is the cloned node or a blank node it mapped for the first time. That those blank nodes are reachable from the cloned node, so that the clone is exactly the image of the reachable subgraph, is not stated.

=== FILE: cloner.dfy ===
/**
 * The subgraph cloner (mapping_paginator.py, copy_recursive_with_new_bnodes):
 * copies every triple reachable from a subject through blank nodes, giving
 * each blank node met a fresh identity recorded in a map that the caller
 * owns for the length of one clone operation. Named nodes and literals are
 * copied as they are.
 *
 * Fresh blank nodes come from a counter: the node allocated is `Blank(next)`
 * and the counter moves on.
 */
module Cloner {
  import opened Rdf

  /** What one clone operation threads through its calls. */
  datatype CloneState = CloneState(out: set<Triple>, bmap: map<nat, nat>, next: nat)

  /** The clone of a node, and the state after cloning it. */
  datatype Cloned = Cloned(node: Term, st: CloneState)

  /** The blank nodes that occur as objects in `g`: the only ones recursion can reach. */
  function ObjectBlanks(g: seq<Triple>): set<nat>
  {
    set i | 0 <= i < |g| && g[i].o.Blank? :: g[i].o.id
  }

  /** How many reachable blank nodes the map has not met yet. */
  function Unmapped(g: seq<Triple>, m: map<nat, nat>): nat
  {
    |ObjectBlanks(g) - m.Keys|
  }

  /** Orders a clone call before the edge walk it starts. */
  function Rank(g: seq<Triple>, t: Term): nat
  {
    if t.Blank? && t.id in ObjectBlanks(g) then 0 else 2
  }

  /** The image of a term under a blank-node map: mapped blank nodes are renamed. */
  function MapTerm(t: Term, m: map<nat, nat>): Term
  {
    if t.Blank? && t.id in m then Blank(m[t.id]) else t
  }

  function MapTriple(x: Triple, m: map<nat, nat>): Triple
  {
    Triple(MapTerm(x.s, m), x.p, MapTerm(x.o, m))
  }

  /** Triple `x` of the input has been copied: its blank nodes are mapped and its image is in `out`. */
  predicate Copied(x: Triple, m: map<nat, nat>, out: set<Triple>)
  {
    && (x.s.Blank? ==> x.s.id in m)
    && (x.o.Blank? ==> x.o.id in m)
    && MapTriple(x, m) in out
  }

  /** Every triple of `g` whose subject is `t` has been copied. */
  predicate NodeDone(g: seq<Triple>, t: Term, m: map<nat, nat>, out: set<Triple>)
  {
    forall j :: 0 <= j < |g| && g[j].s == t ==> Copied(g[j], m, out)
  }

  /** Every blank node in the map has had all its triples copied. */
  predicate Closed(g: seq<Triple>, st: CloneState)
  {
    forall k :: k in st.bmap ==> NodeDone(g, Blank(k), st.bmap, st.out)
  }

  /** `m'` keeps every entry of `m`. */
  predicate Extends(m: map<nat, nat>, m': map<nat, nat>)
  {
    forall k :: k in m ==> k in m' && m'[k] == m[k]
  }

  /** `x` is the image of a triple of `g` whose blank nodes are all mapped. */
  predicate FromInput(g: seq<Triple>, x: Triple, m: map<nat, nat>)
  {
    exists j :: 0 <= j < |g| && Copied(g[j], m, {x})
  }

  /** The map is one-to-one and every identity it handed out is below the counter. */
  predicate Wf(st: CloneState)
  {
    && (forall k :: k in st.bmap ==> st.bmap[k] < st.next)
    && (forall k1, k2 :: k1 in st.bmap && k2 in st.bmap && k1 != k2 ==> st.bmap[k1] != st.bmap[k2])
  }

  /**
   * How a clone operation may change its state: the map only grows, the
   * output only grows, the counter only moves forward, every newly mapped
   * node gets an identity taken from the counter during the step, and every
   * new output triple is the image of an input triple.
   */
  predicate Grows(g: seq<Triple>, st: CloneState, r: CloneState)
  {
    && Extends(st.bmap, r.bmap)
    && st.out <= r.out
    && st.next <= r.next
    && (forall k :: k in r.bmap && k !in st.bmap ==> st.next <= r.bmap[k] < r.next)
    && (forall x :: x in r.out && x !in st.out ==> FromInput(g, x, r.bmap))
  }

  /** `s` is a blank node that `m` maps and `m0` does not: one the clone operation met for the first time. */
  predicate NewlyMapped(s: Term, m0: map<nat, nat>, m: map<nat, nat>)
  {
    s.Blank? && s.id in m && s.id !in m0
  }

  /**
   * `x` is the copy of a triple of `g` reached by the walk from `t`: its
   * subject is `t` itself or a blank node first met since the map was `m0`.
   */
  predicate FromWalk(g: seq<Triple>, x: Triple, t: Term, m0: map<nat, nat>, m: map<nat, nat>)
  {
    exists j :: 0 <= j < |g| && (g[j].s == t || NewlyMapped(g[j].s, m0, m)) && Copied(g[j], m, {x})
  }

  /** Every triple added between `st` and `r` comes from the walk from `t`. */
  predicate WalkAdds(g: seq<Triple>, t: Term, st: CloneState, r: CloneState)
  {
    forall x :: x in r.out && x !in st.out ==> FromWalk(g, x, t, st.bmap, r.bmap)
  }

  /**
   * The recursive clone of one term into the output graph: a blank node already in the map returns its clone at once; a new blank
   * node is given the next identity, registered before its triples are
   * walked; anything else is its own clone.
   */
  function CloneTerm(g: seq<Triple>, t: Term, st: CloneState): (r: Cloned)
    ensures Grows(g, st, r.st)
    ensures WalkAdds(g, t, st, r.st)
    ensures Wf(st) ==> Wf(r.st)
    ensures t.Blank? ==> t.id in r.st.bmap
    ensures r.node == MapTerm(t, r.st.bmap)
    ensures t.Blank? && t.id in st.bmap ==> r == Cloned(Blank(st.bmap[t.id]), st)
    ensures t.Blank? && t.id !in st.bmap ==> r.node == Blank(st.next)
    ensures !(t.Blank? && t.id in st.bmap) ==> NodeDone(g, t, r.st.bmap, r.st.out)
    ensures forall k :: k in r.st.bmap && k !in st.bmap ==> NodeDone(g, Blank(k), r.st.bmap, r.st.out)
    decreases Unmapped(g, st.bmap), Rank(g, t)
  {
    match t
    case Blank(b) =>
      if b in st.bmap then Cloned(Blank(st.bmap[b]), st)
      else
        var st1 := Register(st, b);
        UnmappedShrinks(g, st.bmap, b, st.next);
        var st2 := CloneEdges(g, t, 0, st1);
        RegisterStep(g, b, st, st1, st2);
        Cloned(Blank(st.next), st2)
    case _ =>
      Cloned(t, CloneEdges(g, t, 0, st))
  }

  /** A blank node met for the first time takes the next identity, recorded in the map before its triples are walked. */
  function Register(st: CloneState, b: nat): (r: CloneState)
    requires b !in st.bmap
    ensures r.out == st.out && Extends(st.bmap, r.bmap)
    ensures r.bmap.Keys == st.bmap.Keys + {b} && r.bmap[b] == st.next && r.next == st.next + 1
    ensures Wf(st) ==> Wf(r)
  {
    st.(bmap := st.bmap[b := st.next], next := st.next + 1)
  }

  /**
   * The walk over every input triple whose subject is `subject`, from
   * position `i` of the input on.
   */
  function CloneEdges(g: seq<Triple>, subject: Term, i: nat, st: CloneState): (r: CloneState)
    requires i <= |g|
    requires subject.Blank? ==> subject.id in st.bmap
    ensures Grows(g, st, r)
    ensures WalkAdds(g, subject, st, r)
    ensures Wf(st) ==> Wf(r)
    ensures forall j :: i <= j < |g| && g[j].s == subject ==> Copied(g[j], r.bmap, r.out)
    ensures forall k :: k in r.bmap && k !in st.bmap ==> NodeDone(g, Blank(k), r.bmap, r.out)
    decreases Unmapped(g, st.bmap), 1, |g| - i + 1
  {
    if i == |g| then st
    else if g[i].s != subject then CloneEdges(g, subject, i + 1, st)
    else
      var st1 := CopyEdge(g, i, st);
      UnmappedMonotone(g, st.bmap, st1.bmap);
      var r := CloneEdges(g, subject, i + 1, st1);
      EdgeStep(g, subject, i, st, st1, r);
      r
  }

  /**
   * One triple of the walk: its subject renamed through the map, its object
   * cloned if it is a blank node and kept otherwise, and the result added
   * to the output.
   */
  function CopyEdge(g: seq<Triple>, i: nat, st: CloneState): (r: CloneState)
    requires i < |g|
    requires g[i].s.Blank? ==> g[i].s.id in st.bmap
    ensures Grows(g, st, r)
    ensures WalkAdds(g, g[i].s, st, r)
    ensures Wf(st) ==> Wf(r)
    ensures Copied(g[i], r.bmap, r.out)
    ensures forall k :: k in r.bmap && k !in st.bmap ==> NodeDone(g, Blank(k), r.bmap, r.out)
    decreases Unmapped(g, st.bmap), 1, 0
  {
    var x := g[i];
    var newS := if x.s.Blank? && x.s.id in st.bmap then Blank(st.bmap[x.s.id]) else x.s;
    if x.o.Blank? then
      assert x.o.id in ObjectBlanks(g);
      var c := CloneTerm(g, x.o, st);
      var r := c.st.(out := c.st.out + {Triple(newS, x.p, c.node)});
      BlankEdgeStep(g, i, st, c, r);
      r
    else
      var r := st.(out := st.out + {Triple(newS, x.p, x.o)});
      assert Copied(x, r.bmap, {Triple(newS, x.p, x.o)});
      assert FromWalk(g, Triple(newS, x.p, x.o), x.s, st.bmap, r.bmap);
      r
  }

  // ---------------------------------------------------------------------
  // Helper lemmas for the two functions above.
  // ---------------------------------------------------------------------

  lemma SubsetCardinality<T>(a: set<T>, b: set<T>)
    requires a <= b
    ensures |a| <= |b|
    ensures a < b ==> |a| < |b|
  {
    if a != {} {
      var x :| x in a;
      SubsetCardinality(a - {x}, b - {x});
    } else if a < b {
      var y :| y in b;
    }
  }

  lemma UnmappedMonotone(g: seq<Triple>, m: map<nat, nat>, m': map<nat, nat>)
    requires m.Keys <= m'.Keys
    ensures Unmapped(g, m') <= Unmapped(g, m)
  {
    SubsetCardinality(ObjectBlanks(g) - m'.Keys, ObjectBlanks(g) - m.Keys);
  }

  lemma UnmappedShrinks(g: seq<Triple>, m: map<nat, nat>, b: nat, v: nat)
    requires b !in m
    ensures Unmapped(g, m[b := v]) <= Unmapped(g, m)
    ensures b in ObjectBlanks(g) ==> Unmapped(g, m[b := v]) < Unmapped(g, m)
  {
    var m' := m[b := v];
    assert m'.Keys == m.Keys + {b};
    if b in ObjectBlanks(g) {
      assert b in ObjectBlanks(g) - m.Keys;
      assert ObjectBlanks(g) - m'.Keys < ObjectBlanks(g) - m.Keys;
    }
    SubsetCardinality(ObjectBlanks(g) - m'.Keys, ObjectBlanks(g) - m.Keys);
  }

  lemma FromInputGrows(g: seq<Triple>, x: Triple, m: map<nat, nat>, m': map<nat, nat>)
    requires FromInput(g, x, m) && Extends(m, m')
    ensures FromInput(g, x, m')
  {
    var j :| 0 <= j < |g| && Copied(g[j], m, {x});
    CopiedMonotone(g[j], m, {x}, m', {x});
  }

  lemma CopiedMonotone(x: Triple, m: map<nat, nat>, out: set<Triple>, m': map<nat, nat>, out': set<Triple>)
    requires Copied(x, m, out) && Extends(m, m') && out <= out'
    ensures Copied(x, m', out')
  {
    assert MapTriple(x, m') == MapTriple(x, m);
  }

  lemma NodeDoneMonotone(g: seq<Triple>, t: Term, m: map<nat, nat>, out: set<Triple>, m': map<nat, nat>, out': set<Triple>)
    requires NodeDone(g, t, m, out) && Extends(m, m') && out <= out'
    ensures NodeDone(g, t, m', out')
  {
    forall j | 0 <= j < |g| && g[j].s == t ensures Copied(g[j], m', out') {
      CopiedMonotone(g[j], m, out, m', out');
    }
  }

  lemma GrowsTrans(g: seq<Triple>, a: CloneState, b: CloneState, c: CloneState)
    requires Grows(g, a, b) && Grows(g, b, c)
    ensures Grows(g, a, c)
  {
    forall x | x in c.out && x !in a.out ensures FromInput(g, x, c.bmap) {
      if x !in b.out {
      } else {
        FromInputGrows(g, x, b.bmap, c.bmap);
      }
    }
  }

  /** Registering a new blank node, then walking its triples, clones it. */
  lemma RegisterStep(g: seq<Triple>, b: nat, st: CloneState, st1: CloneState, st2: CloneState)
    requires b !in st.bmap
    requires st1 == Register(st, b)
    requires Grows(g, st1, st2)
    requires WalkAdds(g, Blank(b), st1, st2)
    requires Wf(st1) ==> Wf(st2)
    requires forall j :: 0 <= j < |g| && g[j].s == Blank(b) ==> Copied(g[j], st2.bmap, st2.out)
    requires forall k :: k in st2.bmap && k !in st1.bmap ==> NodeDone(g, Blank(k), st2.bmap, st2.out)
    ensures Grows(g, st, st2)
    ensures WalkAdds(g, Blank(b), st, st2)
    ensures Wf(st) ==> Wf(st2)
    ensures b in st2.bmap && st2.bmap[b] == st.next
    ensures NodeDone(g, Blank(b), st2.bmap, st2.out)
    ensures forall k :: k in st2.bmap && k !in st.bmap ==> NodeDone(g, Blank(k), st2.bmap, st2.out)
  {
    assert Grows(g, st, st1);
    GrowsTrans(g, st, st1, st2);
    forall x | x in st2.out && x !in st.out ensures FromWalk(g, x, Blank(b), st.bmap, st2.bmap) {
      FromWalkWiden(g, x, Blank(b), st1.bmap, st2.bmap, st.bmap, st2.bmap);
    }
  }

  /** Copying a triple whose object is a blank node, once that object is cloned. */
  lemma BlankEdgeStep(g: seq<Triple>, i: nat, st: CloneState, c: Cloned, r: CloneState)
    requires i < |g| && g[i].o.Blank?
    requires g[i].s.Blank? ==> g[i].s.id in st.bmap
    requires Grows(g, st, c.st) && (Wf(st) ==> Wf(c.st))
    requires WalkAdds(g, g[i].o, st, c.st)
    requires g[i].o.id in st.bmap ==> c.st == st
    requires g[i].o.id in c.st.bmap && c.node == MapTerm(g[i].o, c.st.bmap)
    requires forall k :: k in c.st.bmap && k !in st.bmap ==> NodeDone(g, Blank(k), c.st.bmap, c.st.out)
    requires r == c.st.(out := c.st.out + {Triple(MapTerm(g[i].s, st.bmap), g[i].p, c.node)})
    ensures Grows(g, st, r)
    ensures WalkAdds(g, g[i].s, st, r)
    ensures Wf(st) ==> Wf(r)
    ensures Copied(g[i], r.bmap, r.out)
    ensures forall k :: k in r.bmap && k !in st.bmap ==> NodeDone(g, Blank(k), r.bmap, r.out)
  {
    var x := g[i];
    assert MapTerm(x.s, st.bmap) == MapTerm(x.s, r.bmap);
    assert MapTriple(x, r.bmap) in r.out;
    assert Copied(x, r.bmap, {MapTriple(x, r.bmap)});
    assert FromInput(g, MapTriple(x, r.bmap), r.bmap);
    assert Grows(g, c.st, r);
    GrowsTrans(g, st, c.st, r);
    forall k | k in r.bmap && k !in st.bmap ensures NodeDone(g, Blank(k), r.bmap, r.out) {
      NodeDoneMonotone(g, Blank(k), c.st.bmap, c.st.out, r.bmap, r.out);
    }
    ObjectWalkAdds(g, i, st, c.st, r);
  }

  /** What cloning a blank object adds comes from the walk from the edge's subject. */
  lemma ObjectWalkAdds(g: seq<Triple>, i: nat, st: CloneState, cs: CloneState, r: CloneState)
    requires i < |g| && g[i].o.Blank?
    requires Extends(st.bmap, cs.bmap) && g[i].o.id in cs.bmap
    requires WalkAdds(g, g[i].o, st, cs)
    requires g[i].o.id in st.bmap ==> cs == st
    requires r.bmap == cs.bmap && r.out == cs.out + {MapTriple(g[i], cs.bmap)}
    requires Copied(g[i], r.bmap, {MapTriple(g[i], cs.bmap)})
    ensures WalkAdds(g, g[i].s, st, r)
  {
    forall x | x in r.out && x !in st.out ensures FromWalk(g, x, g[i].s, st.bmap, r.bmap) {
      if x != MapTriple(g[i], cs.bmap) {
        var j :| 0 <= j < |g| && (g[j].s == g[i].o || NewlyMapped(g[j].s, st.bmap, cs.bmap)) && Copied(g[j], cs.bmap, {x});
        assert NewlyMapped(g[j].s, st.bmap, r.bmap);
      }
    }
  }

  /** A walk fact survives a map that grows and a starting map that shrinks. */
  lemma FromWalkWiden(g: seq<Triple>, x: Triple, t: Term, m0: map<nat, nat>, m: map<nat, nat>,
                      m0': map<nat, nat>, m': map<nat, nat>)
    requires FromWalk(g, x, t, m0, m)
    requires m0'.Keys <= m0.Keys && Extends(m, m')
    ensures FromWalk(g, x, t, m0', m')
  {
    var j :| 0 <= j < |g| && (g[j].s == t || NewlyMapped(g[j].s, m0, m)) && Copied(g[j], m, {x});
    CopiedMonotone(g[j], m, {x}, m', {x});
  }

  /** Walk facts compose over two steps of one clone operation. */
  lemma WalkAddsTrans(g: seq<Triple>, t: Term, a: CloneState, b: CloneState, c: CloneState)
    requires WalkAdds(g, t, a, b) && WalkAdds(g, t, b, c)
    requires Extends(a.bmap, b.bmap) && Extends(b.bmap, c.bmap) && a.out <= b.out
    ensures WalkAdds(g, t, a, c)
  {
    forall x | x in c.out && x !in a.out ensures FromWalk(g, x, t, a.bmap, c.bmap) {
      if x in b.out {
        FromWalkWiden(g, x, t, a.bmap, b.bmap, a.bmap, c.bmap);
      } else {
        FromWalkWiden(g, x, t, b.bmap, c.bmap, a.bmap, c.bmap);
      }
    }
  }

  /** One step of the edge walk: triple `i` is copied, then the walk goes on from `i + 1`. */
  lemma EdgeStep(g: seq<Triple>, subject: Term, i: nat, st: CloneState, st1: CloneState, r: CloneState)
    requires i < |g| && g[i].s == subject
    requires subject.Blank? ==> subject.id in st.bmap
    requires Grows(g, st, st1) && Grows(g, st1, r)
    requires WalkAdds(g, subject, st, st1) && WalkAdds(g, subject, st1, r)
    requires Copied(g[i], st1.bmap, st1.out)
    requires forall k :: k in st1.bmap && k !in st.bmap ==> NodeDone(g, Blank(k), st1.bmap, st1.out)
    requires (Wf(st) ==> Wf(st1)) && (Wf(st1) ==> Wf(r))
    requires forall j :: i + 1 <= j < |g| && g[j].s == subject ==> Copied(g[j], r.bmap, r.out)
    requires forall k :: k in r.bmap && k !in st1.bmap ==> NodeDone(g, Blank(k), r.bmap, r.out)
    ensures Grows(g, st, r)
    ensures WalkAdds(g, subject, st, r)
    ensures Wf(st) ==> Wf(r)
    ensures forall j :: i <= j < |g| && g[j].s == subject ==> Copied(g[j], r.bmap, r.out)
    ensures forall k :: k in r.bmap && k !in st.bmap ==> NodeDone(g, Blank(k), r.bmap, r.out)
  {
    GrowsTrans(g, st, st1, r);
    WalkAddsTrans(g, subject, st, st1, r);
    CopiedMonotone(g[i], st1.bmap, st1.out, r.bmap, r.out);
    forall k | k in r.bmap && k !in st.bmap ensures NodeDone(g, Blank(k), r.bmap, r.out) {
      if k in st1.bmap {
        NodeDoneMonotone(g, Blank(k), st1.bmap, st1.out, r.bmap, r.out);
      }
    }
  }

  // ---------------------------------------------------------------------
  // What a clone operation guarantees.
  // ---------------------------------------------------------------------

  /**
   * A clone call that starts with every mapped blank node done ends the
   * same way, with the cloned node done too: its whole reachable subgraph
   * has been copied.
   */
  lemma CloneClosed(g: seq<Triple>, t: Term, st: CloneState)
    requires Closed(g, st)
    ensures Closed(g, CloneTerm(g, t, st).st)
    ensures NodeDone(g, t, CloneTerm(g, t, st).st.bmap, CloneTerm(g, t, st).st.out)
  {
    var r := CloneTerm(g, t, st).st;
    forall k | k in r.bmap ensures NodeDone(g, Blank(k), r.bmap, r.out) {
      if k in st.bmap {
        NodeDoneMonotone(g, Blank(k), st.bmap, st.out, r.bmap, r.out);
      }
    }
    if t.Blank? && t.id in st.bmap {
      NodeDoneMonotone(g, t, st.bmap, st.out, r.bmap, r.out);
    }
  }

  /** Every identity in the map was taken from the counter within `[lo, hi)`. */
  predicate AllocatedIn(m: map<nat, nat>, lo: nat, hi: nat)
  {
    forall k :: k in m ==> lo <= m[k] < hi
  }

  /** The map is one-to-one and every identity it handed out lies within `[lo, hi)`. */
  predicate OwnMap(m: map<nat, nat>, lo: nat, hi: nat)
  {
    && AllocatedIn(m, lo, hi)
    && forall k1, k2 :: k1 in m && k2 in m && k1 != k2 ==> m[k1] != m[k2]
  }

  /** Every blank node of the triple is numbered within `[lo, hi)`. */
  predicate BlanksIn(x: Triple, lo: nat, hi: nat)
  {
    (x.s.Blank? ==> lo <= x.s.id < hi) && (x.o.Blank? ==> lo <= x.o.id < hi)
  }

  /**
   * The blank nodes a clone operation writes are the ones it allocated:
   * if the map holds only identities taken since `lo`, so does the map
   * after the call, and so does every new output triple.
   */
  lemma CloneAllocates(g: seq<Triple>, t: Term, st: CloneState, lo: nat, r: CloneState)
    requires lo <= st.next && AllocatedIn(st.bmap, lo, st.next)
    requires r == CloneTerm(g, t, st).st
    ensures st.next <= r.next
    ensures AllocatedIn(r.bmap, lo, r.next)
    ensures forall x :: x in r.out && x !in st.out ==> BlanksIn(x, lo, r.next)
  {
    GrowsAllocates(g, st, r, lo);
  }

  lemma GrowsAllocates(g: seq<Triple>, st: CloneState, r: CloneState, lo: nat)
    requires Grows(g, st, r)
    requires lo <= st.next && AllocatedIn(st.bmap, lo, st.next)
    ensures AllocatedIn(r.bmap, lo, r.next)
    ensures forall x :: x in r.out && x !in st.out ==> BlanksIn(x, lo, r.next)
  {
    forall x | x in r.out && x !in st.out ensures BlanksIn(x, lo, r.next) {
      var j :| 0 <= j < |g| && Copied(g[j], r.bmap, {x});
      assert x == MapTriple(g[j], r.bmap);
    }
  }

  /** The numbers of the blank nodes of a triple. */
  function BlankIds(x: Triple): set<nat>
  {
    (if x.s.Blank? then {x.s.id} else {}) + (if x.o.Blank? then {x.o.id} else {})
  }

  /**
   * Two clone operations, each with its own empty map, one after the other
   * on the same counter, write no blank node in common.
   */
  lemma SeparateClonesDisjoint(g: seq<Triple>, t1: Term, t2: Term, out: set<Triple>, n: nat,
                                a: CloneState, b: CloneState)
    requires a == CloneTerm(g, t1, CloneState(out, map[], n)).st
    requires b == CloneTerm(g, t2, CloneState(a.out, map[], a.next)).st
    ensures forall k1, k2 :: k1 in a.bmap && k2 in b.bmap ==> a.bmap[k1] != b.bmap[k2]
    ensures forall x, y :: x in a.out - out && y in b.out - a.out ==> BlankIds(x) !! BlankIds(y)
  {
    CloneAllocates(g, t1, CloneState(out, map[], n), n, a);
    CloneAllocates(g, t2, CloneState(a.out, map[], a.next), a.next, b);
    RangesDisjoint(a, b, out, n);
  }

  lemma RangesDisjoint(a: CloneState, b: CloneState, out: set<Triple>, n: nat)
    requires AllocatedIn(a.bmap, n, a.next) && AllocatedIn(b.bmap, a.next, b.next)
    requires forall x :: x in a.out && x !in out ==> BlanksIn(x, n, a.next)
    requires forall y :: y in b.out && y !in a.out ==> BlanksIn(y, a.next, b.next)
    ensures forall k1, k2 :: k1 in a.bmap && k2 in b.bmap ==> a.bmap[k1] != b.bmap[k2]
    ensures forall x, y :: x in a.out - out && y in b.out - a.out ==> BlankIds(x) !! BlankIds(y)
  {
  }

  /**
   * Sharing survives a clone: two copied triples with the same blank
   * object point at the same clone, and that clone stands for no other
   * input node.
   */
  lemma SharingPreserved(g: seq<Triple>, st: CloneState, j1: nat, j2: nat)
    requires Wf(st)
    requires j1 < |g| && j2 < |g|
    requires NodeDone(g, g[j1].s, st.bmap, st.out) && NodeDone(g, g[j2].s, st.bmap, st.out)
    requires g[j1].o.Blank? && g[j1].o == g[j2].o
    ensures var c := g[j1].o.id;
      && c in st.bmap
      && Triple(MapTerm(g[j1].s, st.bmap), g[j1].p, Blank(st.bmap[c])) in st.out
      && Triple(MapTerm(g[j2].s, st.bmap), g[j2].p, Blank(st.bmap[c])) in st.out
      && forall k :: k in st.bmap && st.bmap[k] == st.bmap[c] ==> k == c
  {
    assert Copied(g[j1], st.bmap, st.out);
    assert Copied(g[j2], st.bmap, st.out);
  }

  /**
   * Named objects are linked, not followed: every triple a clone operation
   * adds has a blank subject or the cloned node itself as subject, so the
   * own triples of any other named node are never copied.
   */
  lemma NamedObjectLinkedOnly(g: seq<Triple>, t: Term, st: CloneState)
    ensures forall x :: x in CloneTerm(g, t, st).st.out && x !in st.out && !x.s.Blank? ==> x.s == t
  {
    var r := CloneTerm(g, t, st).st;
    forall x | x in r.out && x !in st.out && !x.s.Blank? ensures x.s == t {
      var j :| 0 <= j < |g| && (g[j].s == t || NewlyMapped(g[j].s, st.bmap, r.bmap)) && Copied(g[j], r.bmap, {x});
      assert x == MapTriple(g[j], r.bmap);
    }
  }

  /**
   * An instance: cloning a triples map whose logical source is a named
   * node copies the link but none of the logical source's own triples.
   */
  lemma NamedSourceExample()
    ensures var tm, ls := Named("tm"), Named("ls");
      var g := [Triple(tm, LogicalSource, ls), Triple(ls, Query, Lit("SELECT 1"))];
      CloneTerm(g, tm, CloneState({}, map[], 0)).st.out == {Triple(tm, LogicalSource, ls)}
  {
    var tm, ls := Named("tm"), Named("ls");
    var g := [Triple(tm, LogicalSource, ls), Triple(ls, Query, Lit("SELECT 1"))];
    var st := CloneState({}, map[], 0);
    var st1 := st.(out := {Triple(tm, LogicalSource, ls)});
    assert CopyEdge(g, 0, st) == st1;
    assert CloneEdges(g, tm, 2, st1) == st1;
    assert CloneEdges(g, tm, 1, st1) == st1;
  }

  /** The map a clone operation builds is one-to-one from the empty map on. */
  lemma CloneInjective(g: seq<Triple>, t: Term, out: set<Triple>, n: nat)
    ensures Wf(CloneTerm(g, t, CloneState(out, map[], n)).st)
  {
  }
}

=== FILE: decimal.dfy ===
/** Decimal rendering of naturals, as Python's `str(int)` and f-strings produce it. */
module Decimal {

  predicate IsDigit(c: char)
  {
    '0' <= c <= '9'
  }

  predicate AllDigits(s: string)
  {
    forall i :: 0 <= i < |s| ==> IsDigit(s[i])
  }

  function DigitChar(d: nat): (c: char)
    requires d < 10
    ensures IsDigit(c) && c as int - '0' as int == d
  {
    ('0' as int + d) as char
  }

  function DigitValue(c: char): nat
    requires IsDigit(c)
  {
    c as int - '0' as int
  }

  /** The shortest decimal numeral of `n`: digits only, no leading zero. */
  function NatToString(n: nat): (s: string)
    ensures |s| >= 1 && AllDigits(s)
    ensures s[0] == '0' ==> n == 0
  {
    if n < 10 then [DigitChar(n)]
    else NatToString(n / 10) + [DigitChar(n % 10)]
  }

  /** Reads a non-empty numeral back, most significant digit first. */
  function ParseNat(s: string): nat
    requires |s| >= 1 && AllDigits(s)
  {
    if |s| == 1 then DigitValue(s[0])
    else ParseNat(s[..|s| - 1]) * 10 + DigitValue(s[|s| - 1])
  }

  /** Rendering a natural and reading it back gives the natural. */
  lemma {:induction false} ParsePrinted(n: nat)
    ensures ParseNat(NatToString(n)) == n
  {
    if n >= 10 {
      var s := NatToString(n);
      assert s[..|s| - 1] == NatToString(n / 10);
      ParsePrinted(n / 10);
    }
  }

  /** Distinct naturals have distinct numerals. */
  lemma PrintedInjective(a: nat, b: nat)
    ensures NatToString(a) == NatToString(b) ==> a == b
  {
    if NatToString(a) == NatToString(b) {
      ParsePrinted(a);
      ParsePrinted(b);
    }
  }
}

=== FILE: pagination.dfy ===
/**
 * The pagination planner: whether a rule's source is split into pages, the
 * page size, and each page's LIMIT/OFFSET query (mapping_paginator.py,
 * pagination_creator and the page loop of copy_mapping_with_query).
 */
module Pagination {
  import opened Wrappers
  import Decimal

  /** Sources with more rows than this are paginated. */
  const Threshold: nat := 10000

  /** The row count divided by the number of workers, rounded up: the smallest page size that covers every row. */
  function PageLimit(total: nat, cores: nat): (limit: nat)
    requires cores >= 1
    ensures limit * cores >= total
    ensures (limit - 1) * cores < total
  {
    (total + cores - 1) / cores
  }

  /** The two bounds pin the page size down: nothing else is the ceiling. */
  lemma PageLimitUnique(total: nat, cores: nat, l: int)
    requires cores >= 1
    requires l * cores >= total && (l - 1) * cores < total
    ensures l == PageLimit(total, cores)
  {
    var c := PageLimit(total, cores);
    if l < c {
      MulMonotone(l, c - 1, cores);
    } else if l > c {
      MulMonotone(c, l - 1, cores);
    }
  }

  lemma DivFloor(row: nat, limit: nat)
    requires limit >= 1
    ensures (row / limit) * limit <= row < (row / limit + 1) * limit
  {
  }

  lemma MulMonotone(a: int, b: int, k: nat)
    requires a <= b
    ensures a * k <= b * k
  {
  }

  /** A page: its 0-based index, its offset, and its LIMIT (`None` when the query has none). */
  datatype Page = Page(index: nat, offset: nat, limit: Option<nat>)

  /** The page plan for one source. */
  datatype Plan = Unpaged | Paged(limit: nat, pages: seq<Page>)

  /** Page `i` of a source of `total` rows cut into pages of `limit` rows. */
  function PageAt(total: nat, limit: nat, i: nat): (p: Page)
    ensures p.index == i && p.offset == i * limit
    ensures p.limit.None? <==> p.offset + limit >= total
    ensures p.limit.Some? ==> p.limit.value == limit
  {
    var offset := i * limit;
    Page(i, offset, if offset + limit >= total then None else Some(limit))
  }

  /** The plan for a source of `total` rows on a host with `cores` workers. */
  function MakePlan(total: nat, cores: nat): (r: Plan)
    requires cores >= 1
    ensures r.Paged? <==> total > Threshold
    ensures r.Paged? ==> r.limit * cores >= total && (r.limit - 1) * cores < total
    ensures r.Paged? ==> |r.pages| == cores
    ensures r.Paged? ==> forall i :: 0 <= i < cores ==>
      && r.pages[i].index == i
      && r.pages[i].offset == i * r.limit
      && (r.pages[i].limit.None? <==> r.pages[i].offset + r.limit >= total)
      && (r.pages[i].limit.Some? ==> r.pages[i].limit.value == r.limit)
  {
    if total > Threshold then
      var limit := PageLimit(total, cores);
      Paged(limit, seq(cores, i requires 0 <= i < cores => PageAt(total, limit, i)))
    else Unpaged
  }

  // ---------------------------------------------------------------------
  // What the page queries select.
  // ---------------------------------------------------------------------

  /**
   * SQL's `LIMIT`/`OFFSET` over a result of `total` rows in a fixed order:
   * row `row` is returned by the page's query.
   */
  predicate InWindow(p: Page, total: nat, row: nat)
  {
    && row < total
    && p.offset <= row
    && (p.limit.Some? ==> row < p.offset + p.limit.value)
  }

  function Min(a: int, b: int): int
  {
    if a <= b then a else b
  }

  /**
   * Page `i` selects exactly rows `[i*limit, min((i+1)*limit, total))`,
   * whether or not its query kept its LIMIT: the LIMIT is only dropped when
   * it would not cut anything.
   */
  lemma WindowIsSlice(total: nat, cores: nat, i: nat, row: nat)
    requires cores >= 1 && total > Threshold && i < cores
    ensures var plan := MakePlan(total, cores);
      InWindow(plan.pages[i], total, row)
      <==> i * plan.limit <= row < Min((i + 1) * plan.limit, total)
  {
    var plan := MakePlan(total, cores);
    assert (i + 1) * plan.limit == i * plan.limit + plan.limit;
  }

  /** Every row of the source is selected by some page. */
  lemma PagesCover(total: nat, cores: nat, row: nat)
    requires cores >= 1 && total > Threshold && row < total
    ensures var plan := MakePlan(total, cores);
      exists i :: 0 <= i < cores && InWindow(plan.pages[i], total, row)
  {
    var plan := MakePlan(total, cores);
    var i := RowPage(plan.limit, cores, total, row);
    WindowIsSlice(total, cores, i, row);
  }

  /** The page a row falls on when `cores` pages of `limit` rows cover `total`. */
  lemma RowPage(limit: nat, cores: nat, total: nat, row: nat) returns (i: nat)
    requires limit * cores >= total && row < total
    ensures i < cores && i * limit <= row < (i + 1) * limit
  {
    assert limit >= 1;
    i := row / limit;
    DivFloor(row, limit);
    if i >= cores {
      MulMonotone(cores, i, limit);
      assert false;
    }
  }

  /** No row is selected by two different pages. */
  lemma PagesDisjoint(total: nat, cores: nat, i: nat, j: nat, row: nat)
    requires cores >= 1 && total > Threshold && i < cores && j < cores
    ensures var plan := MakePlan(total, cores);
      InWindow(plan.pages[i], total, row) && InWindow(plan.pages[j], total, row) ==> i == j
  {
    var plan := MakePlan(total, cores);
    WindowIsSlice(total, cores, i, row);
    WindowIsSlice(total, cores, j, row);
    if i < j {
      MulMonotone(i + 1, j, plan.limit);
    } else if j < i {
      MulMonotone(j + 1, i, plan.limit);
    }
  }

  /**
   * Every page after the first that drops its LIMIT selects nothing: its
   * offset is already past the last row.
   */
  lemma UnboundedPagesAfterFirstAreEmpty(total: nat, cores: nat, i: nat, j: nat)
    requires cores >= 1 && total > Threshold && i < j < cores
    requires MakePlan(total, cores).pages[i].limit.None?
    ensures MakePlan(total, cores).pages[j].offset >= total
  {
    var plan := MakePlan(total, cores);
    MulMonotone(i + 1, j, plan.limit);
  }

  // ---------------------------------------------------------------------
  // Page query text.
  // ---------------------------------------------------------------------

  const OffsetKeyword: string := " OFFSET "
  const LimitKeyword: string := " LIMIT "

  /**
   * The query of one page: the source query, then a LIMIT clause when the
   * page has one, then the page's OFFSET. It always extends the source query.
   */
  function PageQuery(q: string, p: Page): (r: string)
    ensures q < r
  {
    match p.limit
    case None => q + OffsetKeyword + Decimal.NatToString(p.offset)
    case Some(l) => q + LimitKeyword + Decimal.NatToString(l) + OffsetKeyword + Decimal.NatToString(p.offset)
  }

  /** The longest prefix of `s` made of digits, and what follows it. */
  function TakeDigits(s: string): (r: (string, string))
    ensures r.0 + r.1 == s
    ensures Decimal.AllDigits(r.0)
    ensures |r.1| == 0 || !Decimal.IsDigit(r.1[0])
  {
    if |s| > 0 && Decimal.IsDigit(s[0]) then
      var r := TakeDigits(s[1..]);
      DigitsPrepend(s, r.0, r.1);
      ([s[0]] + r.0, r.1)
    else ("", s)
  }

  lemma DigitsPrepend(s: string, d: string, rest: string)
    requires |s| > 0 && Decimal.IsDigit(s[0])
    requires d + rest == s[1..] && Decimal.AllDigits(d)
    ensures [s[0]] + d + rest == s
    ensures Decimal.AllDigits([s[0]] + d)
  {
    assert s == [s[0]] + s[1..];
  }

  /** Reads the LIMIT and OFFSET back from what follows the base query. */
  function ReadSuffix(s: string): Option<(Option<nat>, nat)>
  {
    if |s| >= |OffsetKeyword| && s[..|OffsetKeyword|] == OffsetKeyword then
      var digits := s[|OffsetKeyword|..];
      if |digits| >= 1 && Decimal.AllDigits(digits) then Some((None, Decimal.ParseNat(digits)))
      else None
    else if |s| >= |LimitKeyword| && s[..|LimitKeyword|] == LimitKeyword then
      var (ld, rest) := TakeDigits(s[|LimitKeyword|..]);
      if |ld| >= 1 && |rest| >= |OffsetKeyword| && rest[..|OffsetKeyword|] == OffsetKeyword then
        var od := rest[|OffsetKeyword|..];
        if |od| >= 1 && Decimal.AllDigits(od) then Some((Some(Decimal.ParseNat(ld)), Decimal.ParseNat(od)))
        else None
      else None
    else None
  }

  lemma TakePrinted(n: nat, rest: string)
    requires |rest| == 0 || !Decimal.IsDigit(rest[0])
    ensures TakeDigits(Decimal.NatToString(n) + rest) == (Decimal.NatToString(n), rest)
  {
    var d := Decimal.NatToString(n);
    TakeAllDigits(d, rest);
  }

  lemma {:induction false} TakeAllDigits(d: string, rest: string)
    requires Decimal.AllDigits(d)
    requires |rest| == 0 || !Decimal.IsDigit(rest[0])
    ensures TakeDigits(d + rest) == (d, rest)
  {
    if |d| > 0 {
      assert (d + rest)[0] == d[0] && Decimal.IsDigit(d[0]);
      TakeAllDigits(d[1..], rest);
      assert (d + rest)[1..] == d[1..] + rest;
      assert [d[0]] + d[1..] == d;
    } else {
      assert d + rest == rest;
    }
  }

  /** The query text of a page carries its window: it reads back as the page's LIMIT and OFFSET. */
  lemma PageQueryReadsBack(q: string, p: Page)
    ensures ReadSuffix(PageQuery(q, p)[|q|..]) == Some((p.limit, p.offset))
  {
    var od := Decimal.NatToString(p.offset);
    Decimal.ParsePrinted(p.offset);
    match p.limit {
      case None =>
        var s := PageQuery(q, p)[|q|..];
        assert s == OffsetKeyword + od;
        assert s[|OffsetKeyword|..] == od;
      case Some(l) =>
        var ld := Decimal.NatToString(l);
        Decimal.ParsePrinted(l);
        var s := PageQuery(q, p)[|q|..];
        assert s == LimitKeyword + (ld + (OffsetKeyword + od));
        assert s[..|OffsetKeyword|] != OffsetKeyword by {
          assert s[1] == 'L';
        }
        assert s[|LimitKeyword|..] == ld + (OffsetKeyword + od);
        TakePrinted(l, OffsetKeyword + od);
        assert (OffsetKeyword + od)[|OffsetKeyword|..] == od;
    }
  }

  /** The page query keeps its LIMIT exactly when the page ends before the last row. */
  lemma PageQueryShape(q: string, total: nat, cores: nat, i: nat)
    requires cores >= 1 && total > Threshold && i < cores
    ensures var plan := MakePlan(total, cores);
      var o := i * plan.limit;
      PageQuery(q, plan.pages[i]) ==
        if o + plan.limit >= total then q + " OFFSET " + Decimal.NatToString(o)
        else q + " LIMIT " + Decimal.NatToString(plan.limit) + " OFFSET " + Decimal.NatToString(o)
  {
  }

  /** Page queries of one source with different windows are different texts. */
  lemma PageQueriesDistinct(q: string, p1: Page, p2: Page)
    requires (p1.limit, p1.offset) != (p2.limit, p2.offset)
    ensures PageQuery(q, p1) != PageQuery(q, p2)
  {
    PageQueryReadsBack(q, p1);
    PageQueryReadsBack(q, p2);
  }

  /** 25000 rows on four workers: four pages of 6250, the last without LIMIT. */
  lemma PlanExample()
    ensures MakePlan(25000, 4) == Paged(6250, [Page(0, 0, Some(6250)), Page(1, 6250, Some(6250)),
                                               Page(2, 12500, Some(6250)), Page(3, 18750, None)])
  {
    assert PageLimit(25000, 4) == 6250;
    var plan := MakePlan(25000, 4);
    assert plan.pages[0] == PageAt(25000, 6250, 0) == Page(0, 0, Some(6250));
    assert plan.pages[1] == PageAt(25000, 6250, 1) == Page(1, 6250, Some(6250));
    assert plan.pages[2] == PageAt(25000, 6250, 2) == Page(2, 12500, Some(6250));
    assert plan.pages[3] == PageAt(25000, 6250, 3) == Page(3, 18750, None);
  }

  /** The query of the second of those pages. */
  lemma PageQueryExample()
    ensures PageQuery("SELECT * FROM t", Page(1, 6250, Some(6250))) == "SELECT * FROM t LIMIT 6250 OFFSET 6250"
  {
    PrintExample();
  }

  lemma PrintExample()
    ensures Decimal.NatToString(6250) == "6250"
  {
    assert Decimal.NatToString(62) == "62";
    assert Decimal.NatToString(625) == "625";
  }

  /** At the threshold itself nothing is paginated. */
  lemma ThresholdExample()
    ensures MakePlan(10000, 4) == Unpaged
    ensures MakePlan(10001, 4).Paged? && MakePlan(10001, 4).limit == 2501
  {
  }
}

=== FILE: query_deriver.dfy ===
/**
 * Derivation of a default source query from an `rml:tableName`:
 * `SELECT * FROM` followed by the table identifier, each `.`-separated
 * part trimmed, its double quotes doubled and the part wrapped in double
 * quotes (mapping_paginator.py, generate_query_from_table_name).
 */
module QueryDeriver {
  import opened Wrappers

  const SelectAllFrom: string := "SELECT * FROM "

  /** Python's `str.isspace` for one character. */
  predicate IsSpace(c: char)
  {
    var n := c as int;
    || n == 0x20 || 0x09 <= n <= 0x0D || 0x1C <= n <= 0x1F
    || n == 0x85 || n == 0xA0 || n == 0x1680 || 0x2000 <= n <= 0x200A
    || n == 0x2028 || n == 0x2029 || n == 0x202F || n == 0x205F || n == 0x3000
  }

  predicate AllSpace(s: string)
  {
    forall i :: 0 <= i < |s| ==> IsSpace(s[i])
  }

  /** `s` neither starts nor ends with white space. */
  predicate Trimmed(s: string)
  {
    |s| == 0 || (!IsSpace(s[0]) && !IsSpace(s[|s| - 1]))
  }

  function TrimStart(s: string): (r: string)
    ensures |r| <= |s| && r == s[|s| - |r|..]
    ensures AllSpace(s[..|s| - |r|])
    ensures |r| == 0 || !IsSpace(r[0])
  {
    if |s| > 0 && IsSpace(s[0]) then TrimStart(s[1..]) else s
  }

  function TrimEnd(s: string): (r: string)
    ensures |r| <= |s| && r == s[..|r|]
    ensures AllSpace(s[|r|..])
    ensures |r| == 0 || !IsSpace(r[|r| - 1])
  {
    if |s| > 0 && IsSpace(s[|s| - 1]) then TrimEnd(s[..|s| - 1]) else s
  }

  /** `s[i..j]` is `s` with only white space cut from either end. */
  predicate StrippedSlice(s: string, i: int, j: int)
  {
    0 <= i <= j <= |s| && AllSpace(s[..i]) && AllSpace(s[j..])
  }

  /**
   * Python's `str.strip()`: the slice of `s` left once white space is
   * removed from both ends.
   */
  function Strip(s: string): (r: string)
    ensures Trimmed(r)
    ensures exists i, j :: StrippedSlice(s, i, j) && r == s[i..j]
  {
    var a := TrimStart(s);
    var r := TrimEnd(a);
    StripSlice(s, a, r);
    r
  }

  lemma StripSlice(s: string, a: string, r: string)
    requires |a| <= |s| && a == s[|s| - |a|..] && AllSpace(s[..|s| - |a|])
    requires |r| <= |a| && r == a[..|r|] && AllSpace(a[|r|..])
    ensures StrippedSlice(s, |s| - |a|, |s| - |a| + |r|) && r == s[|s| - |a|..|s| - |a| + |r|]
  {
    var i := |s| - |a|;
    var j := i + |r|;
    assert r == s[i..j];
    assert s[j..] == a[|r|..];
  }

  /** Stripping a string that has no white space at either end changes nothing. */
  lemma StripTrimmed(s: string)
    requires Trimmed(s)
    ensures Strip(s) == s
  {
  }

  /** Stripping twice is stripping once. */
  lemma StripIdempotent(s: string)
    ensures Strip(Strip(s)) == Strip(s)
  {
    StripTrimmed(Strip(s));
  }

  /** Python's `s.split(c)`: the maximal `c`-free segments of `s`, empty ones included. */
  function Split(s: string, c: char): (parts: seq<string>)
    ensures |parts| >= 1
    ensures forall k :: 0 <= k < |parts| ==> c !in parts[k]
  {
    if |s| == 0 then [""]
    else
      var rest := Split(s[1..], c);
      if s[0] == c then [""] + rest
      else [[s[0]] + rest[0]] + rest[1..]
  }

  /** Python's `c.join(parts)`. */
  function Join(parts: seq<string>, c: char): string
    requires |parts| >= 1
  {
    if |parts| == 1 then parts[0]
    else parts[0] + [c] + Join(parts[1..], c)
  }

  /** Joining parts that are all quoted gives a quoted string. */
  lemma {:induction false} JoinQuoted(parts: seq<string>, c: char)
    requires |parts| >= 1
    requires forall k :: 0 <= k < |parts| ==> Quoted(parts[k])
    ensures Quoted(Join(parts, c))
  {
    if |parts| > 1 {
      JoinQuoted(parts[1..], c);
      var rest := Join(parts[1..], c);
      assert Quoted(parts[1..][0]);
      var j := parts[0] + [c] + rest;
      assert j[0] == parts[0][0];
      assert j[|j| - 1] == rest[|rest| - 1];
    }
  }

  /** Joining the parts of a split gives back the original string. */
  lemma {:induction false} JoinSplit(s: string, c: char)
    ensures Join(Split(s, c), c) == s
  {
    if |s| > 0 {
      var rest := Split(s[1..], c);
      JoinSplit(s[1..], c);
      if s[0] != c {
        if |rest| > 1 {
          assert ([s[0]] + rest[0] + [c] + Join(rest[1..], c)) == [s[0]] + Join(rest, c);
          assert ([[s[0]] + rest[0]] + rest[1..])[1..] == rest[1..];
        }
      } else {
        assert ([""] + rest)[1..] == rest;
      }
      assert s == [s[0]] + s[1..];
    }
  }

  /** Splitting a join of separator-free parts gives back the parts. */
  lemma {:induction false} SplitJoin(parts: seq<string>, c: char)
    requires |parts| >= 1
    requires forall k :: 0 <= k < |parts| ==> c !in parts[k]
    ensures Split(Join(parts, c), c) == parts
  {
    if |parts| == 1 {
      SplitSegment(parts[0], c);
    } else {
      SplitJoin(parts[1..], c);
      SplitPrefix(parts[0], Join(parts[1..], c), c);
      assert parts == [parts[0]] + parts[1..];
    }
  }

  /** A separator-free string splits into itself. */
  lemma {:induction false} SplitSegment(w: string, c: char)
    requires c !in w
    ensures Split(w, c) == [w]
  {
    if |w| > 0 {
      SplitSegment(w[1..], c);
      assert [w[0]] + w[1..] == w;
    }
  }

  /** Splitting `w + [c] + rest` for separator-free `w` puts `w` in front of the split of `rest`. */
  lemma {:induction false} SplitPrefix(w: string, rest: string, c: char)
    requires c !in w
    ensures Split(w + [c] + rest, c) == [w] + Split(rest, c)
  {
    if |w| == 0 {
      assert w + [c] + rest == [c] + rest;
      assert ([c] + rest)[1..] == rest;
    } else {
      SplitPrefix(w[1..], rest, c);
      var t := w + [c] + rest;
      assert t[1..] == w[1..] + [c] + rest;
      assert [w[0]] + w[1..] == w;
    }
  }

  /** Doubles every double quote inside an identifier part. */
  function Escape(p: string): (r: string)
    ensures |r| >= |p|
  {
    if |p| == 0 then ""
    else if p[0] == '"' then "\"\"" + Escape(p[1..])
    else [p[0]] + Escape(p[1..])
  }

  /** `s` opens and closes with a double quote. */
  predicate Quoted(s: string)
  {
    |s| >= 2 && s[0] == '"' && s[|s| - 1] == '"'
  }

  /** One identifier part between double quotes, its inner quotes doubled. */
  function QuoteIdent(p: string): string
  {
    "\"" + Escape(p) + "\""
  }

  lemma IdentQuoted(p: string)
    ensures Quoted(QuoteIdent(p))
  {
  }

  /** Strips and quotes every part, as the list comprehension of the source does. */
  function QuoteParts(parts: seq<string>): (r: seq<string>)
    ensures |r| == |parts|
  {
    if |parts| == 0 then [] else [QuoteIdent(Strip(parts[0]))] + QuoteParts(parts[1..])
  }

  /** Every part `QuoteParts` produces is quoted. */
  lemma QuotePartsQuoted(parts: seq<string>)
    ensures forall k :: 0 <= k < |parts| ==> Quoted(QuoteParts(parts)[k])
  {
    QuotePartsIsQuoteAll(parts);
    var stripped := StripAll(parts);
    forall k | 0 <= k < |parts| ensures Quoted(QuoteAll(stripped)[k]) {
      IdentQuoted(stripped[k]);
    }
  }

  /**
   * The quoted form of a possibly schema-qualified table name; whatever the
   * name, it opens and closes with a double quote.
   */
  function TableIdentifier(tableName: string): (r: string)
    ensures Quoted(r)
  {
    var t := Strip(tableName);
    if '.' in t then
      QuotePartsQuoted(Split(t, '.'));
      JoinQuoted(QuoteParts(Split(t, '.')), '.');
      Join(QuoteParts(Split(t, '.')), '.')
    else
      IdentQuoted(t);
      QuoteIdent(t)
  }

  /** `generate_query_from_table_name`. */
  function TableQuery(tableName: string): (q: string)
    ensures |q| > |SelectAllFrom| && q[..|SelectAllFrom|] == SelectAllFrom
  {
    SelectAllFrom + TableIdentifier(tableName)
  }

  // ---------------------------------------------------------------------
  // Reading a quoted identifier back: the partner of the quoting above.
  // ---------------------------------------------------------------------

  /**
   * Reads the inside of a quoted identifier whose opening quote is already
   * consumed: a doubled quote stands for one quote, a single quote closes.
   * Returns the identifier and the text after the closing quote.
   */
  function ReadQuoted(s: string): (r: Option<(string, string)>)
    ensures r.Some? ==> |r.value.1| < |s|
  {
    if |s| == 0 then None
    else if s[0] == '"' then
      if |s| >= 2 && s[1] == '"' then
        match ReadQuoted(s[2..])
        case None => None
        case Some((id, rest)) => Some(("\"" + id, rest))
      else Some(("", s[1..]))
    else
      match ReadQuoted(s[1..])
      case None => None
      case Some((id, rest)) => Some(([s[0]] + id, rest))
  }

  /** Reads a `.`-separated list of quoted identifiers that makes up all of `s`. */
  function ParseIdentifier(s: string): Option<seq<string>>
    decreases |s|
  {
    if |s| == 0 || s[0] != '"' then None
    else
      match ReadQuoted(s[1..])
      case None => None
      case Some((id, rest)) =>
        if |rest| == 0 then Some([id])
        else if rest[0] != '.' then None
        else
          match ParseIdentifier(rest[1..])
          case None => None
          case Some(ids) => Some([id] + ids)
  }

  /** Reading an escaped part stops exactly at its closing quote. */
  lemma {:induction false} ReadEscaped(p: string, rest: string)
    requires |rest| == 0 || rest[0] != '"'
    ensures ReadQuoted(Escape(p) + "\"" + rest) == Some((p, rest))
  {
    var s := Escape(p) + "\"" + rest;
    if |p| == 0 {
      assert s == "\"" + rest;
      assert s[1..] == rest;
    } else if p[0] == '"' {
      ReadEscaped(p[1..], rest);
      assert s[2..] == Escape(p[1..]) + "\"" + rest;
      assert "\"" + p[1..] == p;
    } else {
      ReadEscaped(p[1..], rest);
      assert s[1..] == Escape(p[1..]) + "\"" + rest;
      assert [p[0]] + p[1..] == p;
    }
  }

  /** Quoting every part and joining with `.` can be read back into the same parts. */
  lemma ParseQuotedJoin(parts: seq<string>)
    requires |parts| >= 1
    ensures ParseIdentifier(Join(QuoteAll(parts), '.')) == Some(parts)
  {
    JoinQuoteAll(parts);
    ParseQuotedList(parts);
  }

  /** The quoted parts joined with `.`, built part by part. */
  function QuotedList(parts: seq<string>): string
    requires |parts| >= 1
  {
    if |parts| == 1 then QuoteIdent(parts[0])
    else QuoteIdent(parts[0]) + "." + QuotedList(parts[1..])
  }

  lemma {:induction false} JoinQuoteAll(parts: seq<string>)
    requires |parts| >= 1
    ensures Join(QuoteAll(parts), '.') == QuotedList(parts)
  {
    var q := QuoteAll(parts);
    assert q[0] == QuoteIdent(parts[0]);
    if |parts| > 1 {
      JoinQuoteAll(parts[1..]);
      assert q[1..] == QuoteAll(parts[1..]);
    }
  }

  lemma {:induction false} ParseQuotedList(parts: seq<string>)
    requires |parts| >= 1
    ensures ParseIdentifier(QuotedList(parts)) == Some(parts)
  {
    if |parts| == 1 {
      ParseSingleQuoted(parts[0]);
      assert parts == [parts[0]];
    } else {
      var tail := QuotedList(parts[1..]);
      ParseQuotedList(parts[1..]);
      ParseQuotedThen(parts[0], tail, parts[1..]);
      assert QuotedList(parts) == "\"" + (Escape(parts[0]) + "\"" + ("." + tail));
      assert [parts[0]] + parts[1..] == parts;
    }
  }

  lemma ParseSingleQuoted(p: string)
    ensures ParseIdentifier(QuoteIdent(p)) == Some([p])
  {
    var s := QuoteIdent(p);
    ReadEscaped(p, "");
    assert s[1..] == Escape(p) + "\"" + "";
  }

  /** A quoted part followed by `.` and a readable rest reads as the part, then the rest. */
  lemma ParseQuotedThen(p: string, tail: string, ids: seq<string>)
    requires ParseIdentifier(tail) == Some(ids)
    ensures ParseIdentifier("\"" + (Escape(p) + "\"" + ("." + tail))) == Some([p] + ids)
  {
    var s := "\"" + (Escape(p) + "\"" + ("." + tail));
    var rest := "." + tail;
    ReadEscaped(p, rest);
    assert s[1..] == Escape(p) + "\"" + rest;
    assert rest[1..] == tail;
  }

  /** Quotes every part as it is, without stripping. */
  function QuoteAll(parts: seq<string>): (r: seq<string>)
    ensures |r| == |parts|
    ensures forall k :: 0 <= k < |parts| ==> r[k] == QuoteIdent(parts[k])
  {
    if |parts| == 0 then [] else [QuoteIdent(parts[0])] + QuoteAll(parts[1..])
  }

  /** Strips every part. */
  function StripAll(parts: seq<string>): (r: seq<string>)
    ensures |r| == |parts|
    ensures forall k :: 0 <= k < |parts| ==> r[k] == Strip(parts[k])
  {
    if |parts| == 0 then [] else [Strip(parts[0])] + StripAll(parts[1..])
  }

  /** The parts a table name stands for: its stripped `.`-segments, each stripped again. */
  function NameParts(tableName: string): (r: seq<string>)
    ensures |r| >= 1
  {
    StripAll(Split(Strip(tableName), '.'))
  }

  /**
   * Both branches of the source quote the same thing: every `.`-segment of
   * the stripped name, stripped and quoted, rejoined with `.`.
   */
  lemma TableIdentifierUniform(tableName: string)
    ensures TableIdentifier(tableName) == Join(QuoteAll(NameParts(tableName)), '.')
  {
    var t := Strip(tableName);
    assert QuoteParts(Split(t, '.')) == QuoteAll(StripAll(Split(t, '.'))) by {
      QuotePartsIsQuoteAll(Split(t, '.'));
    }
    if '.' !in t {
      SplitSegment(t, '.');
      StripIdempotent(tableName);
    }
  }

  lemma {:induction false} QuotePartsIsQuoteAll(parts: seq<string>)
    ensures QuoteParts(parts) == QuoteAll(StripAll(parts))
  {
    if |parts| > 0 {
      QuotePartsIsQuoteAll(parts[1..]);
      assert StripAll(parts)[1..] == StripAll(parts[1..]);
    }
  }

  /**
   * The quoted identifier cannot be escaped from: whatever the table name
   * holds (quotes, dots, white space), the text after `SELECT * FROM ` reads
   * back as exactly the name's stripped parts.
   */
  lemma DerivedQueryReadsBack(tableName: string)
    ensures ParseIdentifier(TableQuery(tableName)[|SelectAllFrom|..]) == Some(NameParts(tableName))
  {
    TableIdentifierUniform(tableName);
    assert TableQuery(tableName)[|SelectAllFrom|..] == TableIdentifier(tableName);
    ParseQuotedJoin(NameParts(tableName));
  }

  /** Table names with different parts yield different queries. */
  lemma DerivedQueryInjective(a: string, b: string)
    ensures TableQuery(a) == TableQuery(b) ==> NameParts(a) == NameParts(b)
  {
    DerivedQueryReadsBack(a);
    DerivedQueryReadsBack(b);
  }

  // ---------------------------------------------------------------------
  // Two table names worked through.
  // ---------------------------------------------------------------------

  /** A part without double quotes is escaped as itself. */
  lemma {:induction false} EscapePlain(p: string)
    requires '"' !in p
    ensures Escape(p) == p
  {
    if |p| > 0 {
      assert p[1..] == p[1..] && '"' !in p[1..] by {
        forall k | 0 <= k < |p[1..]| ensures p[1..][k] != '"' { assert p[1..][k] == p[k + 1]; }
      }
      EscapePlain(p[1..]);
      assert [p[0]] + p[1..] == p;
    }
  }

  /** Escaping works part by part. */
  lemma {:induction false} EscapeAppend(a: string, b: string)
    ensures Escape(a + b) == Escape(a) + Escape(b)
  {
    if |a| > 0 {
      var head := if a[0] == '"' then "\"\"" else [a[0]];
      assert (a + b)[1..] == a[1..] + b && (a + b)[0] == a[0];
      assert Escape(a + b) == head + Escape(a[1..] + b);
      assert Escape(a) == head + Escape(a[1..]);
      EscapeAppend(a[1..], b);
    } else {
      assert a + b == b;
    }
  }

  /**
   * A schema-qualified name of two plain parts is quoted part by part:
   * `public.orders` gives the identifier `"public"."orders"`, so the query
   * `SELECT * FROM "public"."orders"`.
   */
  lemma QualifiedNameIdentifier(schema: string, table: string)
    requires |schema| > 0 && |table| > 0 && Trimmed(schema) && Trimmed(table)
    requires '.' !in schema && '.' !in table && '"' !in schema && '"' !in table
    ensures TableIdentifier(schema + "." + table) == QuoteIdent(schema) + "." + QuoteIdent(table)
    ensures QuoteIdent(schema) == "\"" + schema + "\"" && QuoteIdent(table) == "\"" + table + "\""
  {
    var t := schema + "." + table;
    assert t[0] == schema[0] && t[|t| - 1] == table[|table| - 1];
    SplitTwo(schema, table);
    IdentifierOfTrimmedParts(t);
    QuoteAllTwo(schema, table);
    JoinTwo(QuoteIdent(schema), QuoteIdent(table));
    QuotePlain(schema);
    QuotePlain(table);
  }

  /** A name of two dot-free parts splits into its parts. */
  lemma SplitTwo(schema: string, table: string)
    requires '.' !in schema && '.' !in table
    ensures Split(schema + "." + table, '.') == [schema, table]
  {
    SplitPrefix(schema, table, '.');
    SplitSegment(table, '.');
  }

  /**
   * When neither the name nor any of its `.`-segments has white space at
   * either end, the identifier quotes each segment as it stands.
   */
  lemma IdentifierOfTrimmedParts(t: string)
    requires Trimmed(t)
    requires forall k :: 0 <= k < |Split(t, '.')| ==> Trimmed(Split(t, '.')[k])
    ensures TableIdentifier(t) == Join(QuoteAll(Split(t, '.')), '.')
  {
    StripTrimmed(t);
    var p := Split(t, '.');
    forall k | 0 <= k < |p| ensures Strip(p[k]) == p[k] {
      StripTrimmed(p[k]);
    }
    if '.' in t {
      QuotePartsFixed(p);
    } else {
      SplitSegment(t, '.');
      assert QuoteAll(p) == [QuoteIdent(t)];
    }
  }

  /** Parts that are already stripped are quoted as they stand. */
  lemma {:induction false} QuotePartsFixed(parts: seq<string>)
    requires forall k :: 0 <= k < |parts| ==> Strip(parts[k]) == parts[k]
    ensures QuoteParts(parts) == QuoteAll(parts)
  {
    if |parts| > 0 {
      QuotePartsFixed(parts[1..]);
    }
  }

  /** Quoting a pair as it stands. */
  lemma QuoteAllTwo(x: string, y: string)
    ensures QuoteAll([x, y]) == [QuoteIdent(x), QuoteIdent(y)]
  {
    var quoted := QuoteAll([x, y]);
    assert quoted[0] == QuoteIdent(x) && quoted[1] == QuoteIdent(y);
  }

  /** Joining a pair with `.`. */
  lemma JoinTwo(u: string, v: string)
    ensures Join([u, v], '.') == u + "." + v
  {
    assert [u, v][1..] == [v];
  }

  /** A part without double quotes is quoted by wrapping it. */
  lemma QuotePlain(p: string)
    requires '"' !in p
    ensures QuoteIdent(p) == "\"" + p + "\""
  {
    EscapePlain(p);
  }

  /** A double quote inside a name is doubled: `My"Table` gives the identifier `"My""Table"`. */
  lemma EmbeddedQuoteIdentifier(a: string, b: string)
    requires |a| > 0 && |b| > 0 && Trimmed(a) && Trimmed(b)
    requires '.' !in a && '.' !in b && '"' !in a && '"' !in b
    ensures TableIdentifier(a + "\"" + b) == "\"" + a + "\"\"" + b + "\""
  {
    var t := a + "\"" + b;
    assert t[0] == a[0] && t[|t| - 1] == b[|b| - 1];
    StripTrimmed(t);
    NotInJoined(a, b, '"', '.');
    assert TableIdentifier(t) == QuoteIdent(t);
    EscapeAround(a, b);
  }

  /** Escaping a quote between two quote-free parts doubles just that quote. */
  lemma EscapeAround(a: string, b: string)
    requires '"' !in a && '"' !in b
    ensures Escape(a + "\"" + b) == a + "\"\"" + b
  {
    assert a + "\"" + b == a + ("\"" + b);
    EscapeAppend(a, "\"" + b);
    EscapePlain(a);
    EscapeQuoteFirst(b);
  }

  /** A leading quote is doubled and the quote-free rest kept. */
  lemma EscapeQuoteFirst(b: string)
    requires '"' !in b
    ensures Escape("\"" + b) == "\"\"" + b
  {
    assert ("\"" + b)[1..] == b;
    EscapePlain(b);
  }

  /** A character in neither part, and not the separator, is not in the joined string. */
  lemma NotInJoined(a: string, b: string, sep: char, c: char)
    requires c !in a && c !in b && c != sep
    ensures c !in a + [sep] + b
  {
  }

  /** `public.orders` gives `SELECT * FROM "public"."orders"`. */
  lemma SchemaQualifiedExample()
    ensures TableQuery("public" + "." + "orders") == "SELECT * FROM \"public\".\"orders\""
  {
    PlainWords("public", "orders");
    QualifiedNameQuery("public", "orders");
    OrdersQueryText();
  }

  /** The query of a two-part name of plain parts, in the shape the example needs. */
  lemma QualifiedNameQuery(schema: string, table: string)
    requires |schema| > 0 && |table| > 0 && Trimmed(schema) && Trimmed(table)
    requires '.' !in schema && '.' !in table && '"' !in schema && '"' !in table
    ensures TableQuery(schema + "." + table) == SelectAllFrom + QuoteIdent(schema) + "." + QuoteIdent(table)
    ensures QuoteIdent(schema) == "\"" + schema + "\"" && QuoteIdent(table) == "\"" + table + "\""
  {
    var t := schema + "." + table;
    QualifiedNameIdentifier(schema, table);
    assert TableQuery(t) == SelectAllFrom + TableIdentifier(t);
  }

  /** The example's query text, assembled from its pieces. */
  lemma OrdersQueryText()
    ensures SelectAllFrom + ("\"" + "public" + "\"") + "." + ("\"" + "orders" + "\"") == "SELECT * FROM \"public\".\"orders\""
  {
  }

  /** `My"Table` gives the identifier `"My""Table"`. */
  lemma EmbeddedQuoteExample()
    ensures TableIdentifier("My" + "\"" + "Table") == "\"My\"\"Table\""
  {
    PlainWords("My", "Table");
    EmbeddedQuoteIdentifier("My", "Table");
  }

  /** The words of the two examples hold no dot, no double quote and no outer white space. */
  lemma PlainWords(a: string, b: string)
    requires (a == "public" && b == "orders") || (a == "My" && b == "Table")
    ensures |a| > 0 && |b| > 0 && Trimmed(a) && Trimmed(b)
    ensures '.' !in a && '.' !in b && '"' !in a && '"' !in b
  {
  }
}

=== FILE: rdf.dfy ===
/**
 * The triple store the paginator reads and writes: terms, triples, the
 * RML vocabulary it inspects, and first-match lookup over a graph.
 *
 * The input graph is a sequence of triples (the order in which the store
 * enumerates them); the output graph is a set, since it is only ever added to.
 */
module Rdf {
  import opened Wrappers
  import Decimal

  type Iri = string

  /** An RDF term: an IRI, a blank node with a numeric identity, or a literal. */
  datatype Term = Named(iri: Iri) | Blank(id: nat) | Lit(lex: string)

  /** Predicates of a mapping document are always IRIs. */
  datatype Triple = Triple(s: Term, p: Iri, o: Term)

  const RmlNs: string := "http://w3id.org/rml/"
  const LogicalSource: Iri := RmlNs + "logicalSource"
  const SubjectMap: Iri := RmlNs + "subjectMap"
  const PredicateObjectMap: Iri := RmlNs + "predicateObjectMap"
  const Query: Iri := RmlNs + "query"
  const TableName: Iri := RmlNs + "tableName"

  /**
   * Python's `str()` of a term: the IRI, the lexical form, or for a blank
   * node an identifier built from its number.
   */
  function TermText(t: Term): string
  {
    match t
    case Named(iri) => iri
    case Lit(lex) => lex
    case Blank(id) => "N" + Decimal.NatToString(id)
  }

  /** Two blank nodes have the same text only if they are the same node. */
  lemma BlankTextInjective(a: nat, b: nat)
    ensures TermText(Blank(a)) == TermText(Blank(b)) <==> a == b
  {
    if TermText(Blank(a)) == TermText(Blank(b)) {
      var sa, sb := Decimal.NatToString(a), Decimal.NatToString(b);
      assert sa == ("N" + sa)[1..];
      assert sb == ("N" + sb)[1..];
      Decimal.PrintedInjective(a, b);
    }
  }

  /** Some triple of `g` has subject `s` and predicate `p`. */
  predicate HasObject(g: seq<Triple>, s: Term, p: Iri)
  {
    exists i :: 0 <= i < |g| && g[i].s == s && g[i].p == p
  }

  /** Index `i` holds the first triple of `g` with subject `s` and predicate `p`. */
  predicate FirstMatchAt(g: seq<Triple>, s: Term, p: Iri, i: int)
  {
    && 0 <= i < |g|
    && g[i].s == s && g[i].p == p
    && forall j :: 0 <= j < i ==> !(g[j].s == s && g[j].p == p)
  }

  /**
   * The object of the first triple of `g` with subject `s` and predicate
   * `p`, if any.
   */
  function FirstObject(g: seq<Triple>, s: Term, p: Iri): (r: Option<Term>)
    ensures r.None? <==> !HasObject(g, s, p)
    ensures r.Some? ==> exists i :: FirstMatchAt(g, s, p, i) && g[i].o == r.value
  {
    if |g| == 0 then None
    else if g[0].s == s && g[0].p == p then Some(g[0].o)
    else
      var r := FirstObject(g[1..], s, p);
      FirstObjectTail(g, s, p, r);
      r
  }

  /** A first match in the tail of `g`, when the head does not match, is a first match in `g`. */
  lemma FirstObjectTail(g: seq<Triple>, s: Term, p: Iri, r: Option<Term>)
    requires |g| > 0 && !(g[0].s == s && g[0].p == p)
    requires r.None? <==> !HasObject(g[1..], s, p)
    requires r.Some? ==> exists i :: FirstMatchAt(g[1..], s, p, i) && g[1..][i].o == r.value
    ensures r.None? <==> !HasObject(g, s, p)
    ensures r.Some? ==> exists i :: FirstMatchAt(g, s, p, i) && g[i].o == r.value
  {
    if HasObject(g, s, p) {
      var i :| 0 <= i < |g| && g[i].s == s && g[i].p == p;
      assert g[1..][i - 1] == g[i];
    }
    if r.Some? {
      var i :| FirstMatchAt(g[1..], s, p, i) && g[1..][i].o == r.value;
      assert g[i + 1] == g[1..][i];
      forall j | 0 <= j < i + 1 ensures !(g[j].s == s && g[j].p == p) {
        if j > 0 { assert g[j] == g[1..][j - 1]; }
      }
      assert FirstMatchAt(g, s, p, i + 1);
    }
  }

  /** Every blank node of the triple, in subject or object position, is below `bound`. */
  predicate BlanksBelow(x: Triple, bound: nat)
  {
    (x.s.Blank? ==> x.s.id < bound) && (x.o.Blank? ==> x.o.id < bound)
  }

  /** No blank node of the input graph is numbered `bound` or above. */
  predicate GraphBlanksBelow(g: seq<Triple>, bound: nat)
  {
    forall i :: 0 <= i < |g| ==> BlanksBelow(g[i], bound)
  }

  /** No blank node of the output graph is numbered `bound` or above. */
  predicate SetBlanksBelow(out: set<Triple>, bound: nat)
  {
    forall x :: x in out ==> BlanksBelow(x, bound)
  }
}

=== FILE: rewriter.dfy ===
/**
 * The mapping rewriter (mapping_paginator.py, copy_mapping_with_query,
 * lines 92-157): reads every triples map of the input document, decides
 * from its source query and row count whether to paginate it, emits one
 * `_Page<n>` triples map per page for the large ones, and finally clones
 * every carried-over node into the output with one shared blank-node map.
 *
 * The row count of a query (`row_counter`, a database round trip that
 * yields 0 on any failure) and the number of cores (`cpu_count`) are
 * parameters.
 */
module Rewriter {
  import opened Wrappers
  import opened Rdf
  import Decimal
  import QueryDeriver
  import Pagination
  import opened Cloner

  // ---------------------------------------------------------------------
  // Reading a triples map.
  // ---------------------------------------------------------------------

  /** The subjects of the logical-source triples: one entry per such triple, in store order. */
  function RuleSubjects(g: seq<Triple>): (r: seq<Term>)
    ensures forall t :: t in r <==> HasObject(g, t, LogicalSource)
  {
    if |g| == 0 then []
    else
      var rest := RuleSubjects(g[1..]);
      assert forall t :: HasObject(g, t, LogicalSource) <==>
        (g[0].s == t && g[0].p == LogicalSource) || HasObject(g[1..], t, LogicalSource) by {
        forall t ensures HasObject(g, t, LogicalSource) <==>
          (g[0].s == t && g[0].p == LogicalSource) || HasObject(g[1..], t, LogicalSource) {
          if HasObject(g, t, LogicalSource) {
            var i :| 0 <= i < |g| && g[i].s == t && g[i].p == LogicalSource;
            if i > 0 { assert g[1..][i - 1] == g[i]; }
          }
          if HasObject(g[1..], t, LogicalSource) {
            var i :| 0 <= i < |g[1..]| && g[1..][i].s == t && g[1..][i].p == LogicalSource;
            assert g[i + 1] == g[1..][i];
          }
        }
      }
      if g[0].p == LogicalSource then [g[0].s] + rest else rest
  }

  /** The nodes of one triples map the rewriter works with (lines 93-95). */
  datatype Rule = Rule(tm: Term, ls: Term, sm: Option<Term>, pom: Option<Term>)

  /**
   * Lines 93-95: each node is the object of the first triple of `tm` with
   * that predicate in store order; a missing subject map or
   * predicate-object map is `None`.
   */
  function ReadRule(g: seq<Triple>, tm: Term): (r: Rule)
    requires HasObject(g, tm, LogicalSource)
    ensures r.tm == tm
    ensures exists i :: FirstMatchAt(g, tm, LogicalSource, i) && r.ls == g[i].o
    ensures r.sm.None? <==> !HasObject(g, tm, SubjectMap)
    ensures r.sm.Some? ==> exists i :: FirstMatchAt(g, tm, SubjectMap, i) && r.sm.value == g[i].o
    ensures r.pom.None? <==> !HasObject(g, tm, PredicateObjectMap)
    ensures r.pom.Some? ==> exists i :: FirstMatchAt(g, tm, PredicateObjectMap, i) && r.pom.value == g[i].o
  {
    Rule(tm, FirstObject(g, tm, LogicalSource).value,
      FirstObject(g, tm, SubjectMap), FirstObject(g, tm, PredicateObjectMap))
  }

  /**
   * The source query of a logical source (lines 98-104): its `rml:query`
   * if it has one, else the query derived from its `rml:tableName`, else
   * nothing.
   */
  function SourceQuery(g: seq<Triple>, ls: Term): (r: Option<string>)
    ensures HasObject(g, ls, Query) ==> r == Some(TermText(FirstObject(g, ls, Query).value))
    ensures !HasObject(g, ls, Query) && HasObject(g, ls, TableName)
      ==> r == Some(QueryDeriver.TableQuery(TermText(FirstObject(g, ls, TableName).value)))
    ensures r.None? <==> !HasObject(g, ls, Query) && !HasObject(g, ls, TableName)
  {
    match FirstObject(g, ls, Query)
    case Some(q) => Some(TermText(q))
    case None =>
      match FirstObject(g, ls, TableName)
      case Some(t) => Some(QueryDeriver.TableQuery(TermText(t)))
      case None => None
  }

  /** What happens to one triples map. */
  datatype Decision = CarryOver | Paginate(query: string, limit: nat, pages: seq<Pagination.Page>)

  /**
   * Lines 101-118: a triples map without a source query, or whose query
   * counts no more than the threshold, is carried over; otherwise it is
   * paginated over `cores` pages.
   */
  function Decide(g: seq<Triple>, rule: Rule, rows: string -> nat, cores: nat): (d: Decision)
    requires cores >= 1
    ensures d.Paginate? <==> SourceQuery(g, rule.ls).Some? && rows(SourceQuery(g, rule.ls).value) > Pagination.Threshold
    ensures d.Paginate? ==> d.query == SourceQuery(g, rule.ls).value
    ensures d.Paginate? ==> d.limit == Pagination.PageLimit(rows(d.query), cores)
    ensures d.Paginate? ==> Pagination.MakePlan(rows(d.query), cores) == Pagination.Paged(d.limit, d.pages)
  {
    match SourceQuery(g, rule.ls)
    case None => CarryOver
    case Some(q) =>
      match Pagination.MakePlan(rows(q), cores)
      case Unpaged => CarryOver
      case Paged(limit, pages) => Paginate(q, limit, pages)
  }

  /** Without a source query the triples map is carried over, whatever the row counter would say. */
  lemma NoQueryNoCount(g: seq<Triple>, rule: Rule, rows1: string -> nat, rows2: string -> nat, cores: nat)
    requires cores >= 1
    ensures SourceQuery(g, rule.ls).None? ==>
      Decide(g, rule, rows1, cores) == Decide(g, rule, rows2, cores) == CarryOver
  {
  }

  /** The decision depends on the row counter only through the count of the rule's own query. */
  lemma DecisionByCount(g: seq<Triple>, rule: Rule, rows1: string -> nat, rows2: string -> nat, cores: nat)
    requires cores >= 1
    ensures SourceQuery(g, rule.ls).Some? && rows1(SourceQuery(g, rule.ls).value) == rows2(SourceQuery(g, rule.ls).value)
      ==> Decide(g, rule, rows1, cores) == Decide(g, rule, rows2, cores)
  {
  }

  // ---------------------------------------------------------------------
  // Emitting one page.
  // ---------------------------------------------------------------------

  /**
   * The name of page `i` of `tm`: an IRI made of the text of `tm`, `_Page`
   * and the page's number counted from one.
   */
  function PageName(tm: Term, i: nat): (r: Term)
    ensures r.Named? && TermText(tm) + "_Page" < r.iri
  {
    Named(TermText(tm) + "_Page" + Decimal.NatToString(i + 1))
  }

  /** No triple of `out` has subject `t`. */
  predicate NoSubject(out: set<Triple>, t: Term)
  {
    forall x :: x in out ==> x.s != t
  }

  /**
   * The page's logical source as the output holds it: `Blank(lsId)` has
   * exactly the predicate-objects of `ls` other than `rml:query`, and one
   * `rml:query`, the page query.
   */
  ghost predicate DescribesPageSource(out: set<Triple>, lsId: nat, g: seq<Triple>, ls: Term, pageQuery: string)
  {
    forall p, o :: Triple(Blank(lsId), p, o) in out <==> PageSourcePO(g, ls, pageQuery, p, o)
  }

  predicate PageSourcePO(g: seq<Triple>, ls: Term, pageQuery: string, p: Iri, o: Term)
  {
    (p != Query && Triple(ls, p, o) in g) || (p == Query && o == Lit(pageQuery))
  }

  /**
   * Lines 128-135: a fresh logical source `Blank(lsId)` carrying every
   * predicate-object of `ls` except `rml:query`, then the page query, then
   * the link from the page's triples map.
   */
  function EmitSource(g: seq<Triple>, ls: Term, pageQuery: string, name: Term, out: set<Triple>, lsId: nat)
    : (r: set<Triple>)
    requires name.Named?
    ensures out <= r
    ensures forall x :: x in r && x !in out ==> x.s == Blank(lsId) || x == Triple(name, LogicalSource, Blank(lsId))
    ensures Triple(name, LogicalSource, Blank(lsId)) in r
    ensures NoSubject(out, Blank(lsId)) ==> DescribesPageSource(r, lsId, g, ls, pageQuery)
    ensures GraphBlanksBelow(g, lsId) ==> forall x :: x in r && x !in out ==> BlanksBelow(x, lsId + 1)
  {
    var copied := set j | 0 <= j < |g| && g[j].s == ls && g[j].p != Query :: Triple(Blank(lsId), g[j].p, g[j].o);
    assert forall p, o :: p != Query && Triple(ls, p, o) in g ==> Triple(Blank(lsId), p, o) in copied by {
      forall p, o | p != Query && Triple(ls, p, o) in g ensures Triple(Blank(lsId), p, o) in copied {
        var j :| 0 <= j < |g| && g[j] == Triple(ls, p, o);
      }
    }
    assert forall p, o :: Triple(Blank(lsId), p, o) in copied ==> p != Query && Triple(ls, p, o) in g by {
      forall p, o | Triple(Blank(lsId), p, o) in copied ensures p != Query && Triple(ls, p, o) in g {
        var j :| 0 <= j < |g| && g[j].s == ls && g[j].p != Query && Triple(Blank(lsId), g[j].p, g[j].o) == Triple(Blank(lsId), p, o);
        assert g[j] == Triple(ls, p, o);
      }
    }
    assert GraphBlanksBelow(g, lsId) ==> forall x :: x in copied ==> BlanksBelow(x, lsId + 1) by {
      if GraphBlanksBelow(g, lsId) {
        forall x | x in copied ensures BlanksBelow(x, lsId + 1) {
          var j :| 0 <= j < |g| && g[j].s == ls && g[j].p != Query && x == Triple(Blank(lsId), g[j].p, g[j].o);
          assert BlanksBelow(g[j], lsId);
        }
      }
    }
    out + copied + {Triple(Blank(lsId), Query, Lit(pageQuery)), Triple(name, LogicalSource, Blank(lsId))}
  }

  /**
   * Lines 137-143: the page's subject map and predicate-object map cloned
   * with the page's own blank-node map, and linked from the page's triples map.
   */
  function ClonePageMaps(g: seq<Triple>, rule: Rule, name: Term, cs: CloneState): (r: CloneState)
    requires name.Named?
    ensures cs.out <= r.out && cs.next <= r.next && Extends(cs.bmap, r.bmap)
    ensures Wf(cs) ==> Wf(r)
    ensures Closed(g, cs) ==> Closed(g, r)
    ensures AllocatedIn(cs.bmap, cs.next, cs.next) ==>
      && AllocatedIn(r.bmap, cs.next, r.next)
      && forall x :: x in r.out && x !in cs.out ==> BlanksIn(x, cs.next, r.next)
    ensures Closed(g, cs) && rule.sm.Some? ==>
      Triple(name, SubjectMap, MapTerm(rule.sm.value, r.bmap)) in r.out && NodeDone(g, rule.sm.value, r.bmap, r.out)
    ensures Closed(g, cs) && rule.pom.Some? ==>
      Triple(name, PredicateObjectMap, MapTerm(rule.pom.value, r.bmap)) in r.out && NodeDone(g, rule.pom.value, r.bmap, r.out)
    ensures rule.sm.Some? && rule.sm.value.Blank? ==> rule.sm.value.id in r.bmap
    ensures rule.pom.Some? && rule.pom.value.Blank? ==> rule.pom.value.id in r.bmap
  {
    var cs1 := CloneLinked(g, rule.sm, name, SubjectMap, cs, cs.next);
    var r := CloneLinked(g, rule.pom, name, PredicateObjectMap, cs1, cs.next);
    SubjectMapKept(g, rule, name, cs, cs1, r);
    r
  }

  /** Cloning the predicate-object map leaves the subject map's clone in place. */
  lemma SubjectMapKept(g: seq<Triple>, rule: Rule, name: Term, cs: CloneState, cs1: CloneState, r: CloneState)
    requires cs1.out <= r.out && Extends(cs1.bmap, r.bmap)
    requires Closed(g, cs) && rule.sm.Some? ==>
      Triple(name, SubjectMap, MapTerm(rule.sm.value, cs1.bmap)) in cs1.out && NodeDone(g, rule.sm.value, cs1.bmap, cs1.out)
    requires rule.sm.Some? && rule.sm.value.Blank? ==> rule.sm.value.id in cs1.bmap
    ensures Closed(g, cs) && rule.sm.Some? ==>
      Triple(name, SubjectMap, MapTerm(rule.sm.value, r.bmap)) in r.out && NodeDone(g, rule.sm.value, r.bmap, r.out)
  {
    if Closed(g, cs) && rule.sm.Some? {
      NodeDoneMonotone(g, rule.sm.value, cs1.bmap, cs1.out, r.bmap, r.out);
      assert MapTerm(rule.sm.value, cs1.bmap) == MapTerm(rule.sm.value, r.bmap);
    }
  }

  /** When the node is present, clone it and link the clone to `name` through `pred`; otherwise nothing changes. */
  function CloneLinked(g: seq<Triple>, node: Option<Term>, name: Term, pred: Iri, cs: CloneState, lo: nat)
    : (r: CloneState)
    requires name.Named?
    ensures cs.out <= r.out && cs.next <= r.next && Extends(cs.bmap, r.bmap)
    ensures Wf(cs) ==> Wf(r)
    ensures Closed(g, cs) ==> Closed(g, r)
    ensures lo <= cs.next && AllocatedIn(cs.bmap, lo, cs.next) ==>
      && AllocatedIn(r.bmap, lo, r.next)
      && forall x :: x in r.out && x !in cs.out ==> BlanksIn(x, lo, r.next)
    ensures Closed(g, cs) && node.Some? ==>
      Triple(name, pred, MapTerm(node.value, r.bmap)) in r.out && NodeDone(g, node.value, r.bmap, r.out)
    ensures node.Some? && node.value.Blank? ==> node.value.id in r.bmap
  {
    match node
    case None => cs
    case Some(n) =>
      var c := CloneTerm(g, n, cs);
      var r := c.st.(out := c.st.out + {Triple(name, pred, c.node)});
      LinkedFacts(g, n, name, pred, cs, c, r, lo);
      r
  }

  lemma LinkedFacts(g: seq<Triple>, n: Term, name: Term, pred: Iri, cs: CloneState, c: Cloned, r: CloneState, lo: nat)
    requires name.Named?
    requires c == CloneTerm(g, n, cs)
    requires r == c.st.(out := c.st.out + {Triple(name, pred, c.node)})
    ensures cs.out <= r.out && cs.next <= r.next && Extends(cs.bmap, r.bmap)
    ensures Wf(cs) ==> Wf(r)
    ensures Closed(g, cs) ==> Closed(g, r)
    ensures lo <= cs.next && AllocatedIn(cs.bmap, lo, cs.next) ==>
      && AllocatedIn(r.bmap, lo, r.next)
      && forall x :: x in r.out && x !in cs.out ==> BlanksIn(x, lo, r.next)
    ensures Closed(g, cs) ==>
      Triple(name, pred, MapTerm(n, r.bmap)) in r.out && NodeDone(g, n, r.bmap, r.out)
    ensures n.Blank? ==> n.id in r.bmap
  {
    if Closed(g, cs) {
      CloneClosed(g, n, cs);
      forall k | k in r.bmap ensures NodeDone(g, Blank(k), r.bmap, r.out) {
        NodeDoneMonotone(g, Blank(k), c.st.bmap, c.st.out, r.bmap, r.out);
      }
      NodeDoneMonotone(g, n, c.st.bmap, c.st.out, r.bmap, r.out);
    }
    if lo <= cs.next && AllocatedIn(cs.bmap, lo, cs.next) {
      CloneAllocates(g, n, cs, lo, c.st);
    }
  }

  /** Every triple `out'` adds to `out` has a non-blank subject or one numbered `lo` or above. */
  predicate AddsAbove(out: set<Triple>, out': set<Triple>, lo: nat)
  {
    forall x :: x in out' && x !in out ==> (x.s.Blank? ==> x.s.id >= lo)
  }

  /** The blank-node supply is fresh: nothing in the input or the output is numbered `next` or above. */
  predicate Fresh(g: seq<Triple>, out: set<Triple>, next: nat)
  {
    GraphBlanksBelow(g, next) && SetBlanksBelow(out, next)
  }

  /**
   * `node`, if present, is cloned with map `m` and linked from `name` by
   * `pred`; a blank `node` is itself renamed by `m`.
   */
  ghost predicate LinkedClone(out: set<Triple>, g: seq<Triple>, node: Option<Term>, name: Term, pred: Iri, m: map<nat, nat>)
  {
    node.Some? ==>
      && (node.value.Blank? ==> node.value.id in m)
      && Triple(name, pred, MapTerm(node.value, m)) in out
      && NodeDone(g, node.value, m, out)
  }

  /**
   * The page triples map `name` is in the output and owns the blank-node
   * identities `[lo, hi)`: it is linked to a logical source numbered there
   * that carries the page query, and to a complete clone of the rule's
   * subject map and predicate-object map made with a one-to-one map whose
   * copies are all numbered there.
   */
  ghost predicate PageEmitted(out: set<Triple>, lo: nat, hi: nat, g: seq<Triple>, rule: Rule, pageQuery: string, name: Term)
  {
    && (exists n: nat :: lo <= n < hi && Triple(name, LogicalSource, Blank(n)) in out
         && DescribesPageSource(out, n, g, rule.ls, pageQuery))
    && (exists m :: OwnMap(m, lo, hi) && Closed(g, CloneState(out, m, 0))
         && LinkedClone(out, g, rule.sm, name, SubjectMap, m)
         && LinkedClone(out, g, rule.pom, name, PredicateObjectMap, m))
  }

  /**
   * Additions whose blank subjects are numbered `above` or higher leave an
   * emitted page as it was, and a page owning `[lo, hi)` owns any wider range.
   */
  lemma PageEmittedKept(out: set<Triple>, lo: nat, hi: nat, out': set<Triple>, lo': nat, hi': nat, above: nat,
                        g: seq<Triple>, rule: Rule, pageQuery: string, name: Term)
    requires PageEmitted(out, lo, hi, g, rule, pageQuery, name)
    requires out <= out' && lo' <= lo && hi <= hi' && hi <= above && AddsAbove(out, out', above)
    ensures PageEmitted(out', lo', hi', g, rule, pageQuery, name)
  {
    var n: nat :| lo <= n < hi && Triple(name, LogicalSource, Blank(n)) in out
      && DescribesPageSource(out, n, g, rule.ls, pageQuery);
    assert DescribesPageSource(out', n, g, rule.ls, pageQuery) by {
      forall p, o ensures Triple(Blank(n), p, o) in out' <==> PageSourcePO(g, rule.ls, pageQuery, p, o) {
        if Triple(Blank(n), p, o) in out' && Triple(Blank(n), p, o) !in out {
          assert false;
        }
      }
    }
    var m :| OwnMap(m, lo, hi) && Closed(g, CloneState(out, m, 0))
      && LinkedClone(out, g, rule.sm, name, SubjectMap, m)
      && LinkedClone(out, g, rule.pom, name, PredicateObjectMap, m);
    forall k | k in m ensures NodeDone(g, Blank(k), m, out') {
      NodeDoneMonotone(g, Blank(k), m, out, m, out');
    }
    if rule.sm.Some? { NodeDoneMonotone(g, rule.sm.value, m, out, m, out'); }
    if rule.pom.Some? { NodeDoneMonotone(g, rule.pom.value, m, out, m, out'); }
    assert Closed(g, CloneState(out', m, 0));
    assert OwnMap(m, lo', hi');
  }

  /**
   * Two pages, of one rule or of two, own disjoint identity ranges: the
   * first page's lies below some `b`, the second's at or above it.
   */
  ghost predicate PagesApart(out: set<Triple>, lo: nat, hi: nat, g: seq<Triple>,
                             rule1: Rule, query1: string, name1: Term, rule2: Rule, query2: string, name2: Term)
  {
    exists b: nat :: lo <= b <= hi
      && PageEmitted(out, lo, b, g, rule1, query1, name1)
      && PageEmitted(out, b, hi, g, rule2, query2, name2)
  }

  lemma PagesApartKept(out: set<Triple>, lo: nat, hi: nat, out': set<Triple>, lo': nat, hi': nat, above: nat,
                       g: seq<Triple>, rule1: Rule, query1: string, name1: Term, rule2: Rule, query2: string, name2: Term)
    requires PagesApart(out, lo, hi, g, rule1, query1, name1, rule2, query2, name2)
    requires out <= out' && lo' <= lo && hi <= hi' && hi <= above && AddsAbove(out, out', above)
    ensures PagesApart(out', lo', hi', g, rule1, query1, name1, rule2, query2, name2)
  {
    var b: nat :| lo <= b <= hi
      && PageEmitted(out, lo, b, g, rule1, query1, name1)
      && PageEmitted(out, b, hi, g, rule2, query2, name2);
    PageEmittedKept(out, lo, b, out', lo', b, above, g, rule1, query1, name1);
    PageEmittedKept(out, b, hi, out', b, hi', above, g, rule2, query2, name2);
  }

  /**
   * Pages kept apart share no node: their logical sources are different
   * blank nodes, and a blank subject map or predicate-object map gets a
   * different clone in each page.
   */
  lemma ApartPagesShareNothing(out: set<Triple>, lo: nat, hi: nat, g: seq<Triple>,
                               rule1: Rule, query1: string, name1: Term, rule2: Rule, query2: string, name2: Term)
    requires PagesApart(out, lo, hi, g, rule1, query1, name1, rule2, query2, name2)
    ensures exists n1: nat, n2: nat ::
      && n1 != n2
      && Triple(name1, LogicalSource, Blank(n1)) in out && DescribesPageSource(out, n1, g, rule1.ls, query1)
      && Triple(name2, LogicalSource, Blank(n2)) in out && DescribesPageSource(out, n2, g, rule2.ls, query2)
    ensures exists m1, m2 ::
      && (forall k1, k2 :: k1 in m1 && k2 in m2 ==> m1[k1] != m2[k2])
      && LinkedClone(out, g, rule1.sm, name1, SubjectMap, m1) && LinkedClone(out, g, rule2.sm, name2, SubjectMap, m2)
      && LinkedClone(out, g, rule1.pom, name1, PredicateObjectMap, m1)
      && LinkedClone(out, g, rule2.pom, name2, PredicateObjectMap, m2)
  {
    var b: nat :| lo <= b <= hi
      && PageEmitted(out, lo, b, g, rule1, query1, name1)
      && PageEmitted(out, b, hi, g, rule2, query2, name2);
    var n1: nat :| lo <= n1 < b && Triple(name1, LogicalSource, Blank(n1)) in out
      && DescribesPageSource(out, n1, g, rule1.ls, query1);
    var n2: nat :| b <= n2 < hi && Triple(name2, LogicalSource, Blank(n2)) in out
      && DescribesPageSource(out, n2, g, rule2.ls, query2);
    var m1 :| OwnMap(m1, lo, b) && Closed(g, CloneState(out, m1, 0))
      && LinkedClone(out, g, rule1.sm, name1, SubjectMap, m1)
      && LinkedClone(out, g, rule1.pom, name1, PredicateObjectMap, m1);
    var m2 :| OwnMap(m2, b, hi) && Closed(g, CloneState(out, m2, 0))
      && LinkedClone(out, g, rule2.sm, name2, SubjectMap, m2)
      && LinkedClone(out, g, rule2.pom, name2, PredicateObjectMap, m2);
    assert forall k1, k2 :: k1 in m1 && k2 in m2 ==> m1[k1] < b <= m2[k2];
  }

  /** Progress of the output graph and the blank-node counter. */
  datatype Progress = Progress(out: set<Triple>, next: nat)

  /** One iteration of the page loop (lines 121-143). */
  function EmitPage(g: seq<Triple>, rule: Rule, query: string, page: Pagination.Page, pr: Progress): (r: Progress)
    ensures pr.out <= r.out && pr.next < r.next
    ensures AddsAbove(pr.out, r.out, pr.next)
    ensures Fresh(g, pr.out, pr.next) ==> Fresh(g, r.out, r.next)
    ensures SetBlanksBelow(pr.out, pr.next) ==>
      PageEmitted(r.out, pr.next, r.next, g, rule, Pagination.PageQuery(query, page), PageName(rule.tm, page.index))
  {
    var name := PageName(rule.tm, page.index);
    var pq := Pagination.PageQuery(query, page);
    var out1 := EmitSource(g, rule.ls, pq, name, pr.out, pr.next);
    var cs0 := CloneState(out1, map[], pr.next + 1);
    var cs := ClonePageMaps(g, rule, name, cs0);
    EmitPageFacts(g, rule, pq, name, pr, out1, cs0, cs);
    Progress(cs.out, cs.next)
  }

  lemma EmitPageFacts(g: seq<Triple>, rule: Rule, pq: string, name: Term, pr: Progress,
                      out1: set<Triple>, cs0: CloneState, cs: CloneState)
    requires name.Named?
    requires out1 == EmitSource(g, rule.ls, pq, name, pr.out, pr.next)
    requires cs0 == CloneState(out1, map[], pr.next + 1)
    requires cs == ClonePageMaps(g, rule, name, cs0)
    ensures pr.out <= cs.out && pr.next < cs.next
    ensures AddsAbove(pr.out, cs.out, pr.next)
    ensures Fresh(g, pr.out, pr.next) ==> Fresh(g, cs.out, cs.next)
    ensures SetBlanksBelow(pr.out, pr.next) ==> PageEmitted(cs.out, pr.next, cs.next, g, rule, pq, name)
  {
    EmitPageFresh(g, rule, pq, name, pr, out1, cs0, cs);
    if SetBlanksBelow(pr.out, pr.next) {
      EmitPageOwned(g, rule, pq, name, pr, out1, cs0, cs);
    }
  }

  /** A page adds only blank nodes drawn for it. */
  lemma EmitPageFresh(g: seq<Triple>, rule: Rule, pq: string, name: Term, pr: Progress,
                      out1: set<Triple>, cs0: CloneState, cs: CloneState)
    requires name.Named?
    requires out1 == EmitSource(g, rule.ls, pq, name, pr.out, pr.next)
    requires cs0 == CloneState(out1, map[], pr.next + 1)
    requires cs == ClonePageMaps(g, rule, name, cs0)
    ensures pr.out <= cs.out && pr.next < cs.next
    ensures AddsAbove(pr.out, cs.out, pr.next)
    ensures Fresh(g, pr.out, pr.next) ==> Fresh(g, cs.out, cs.next)
  {
    assert AllocatedIn(cs0.bmap, cs0.next, cs0.next);
    assert forall x :: x in cs.out && x !in out1 ==> BlanksIn(x, pr.next + 1, cs.next);
    if Fresh(g, pr.out, pr.next) {
      forall x | x in cs.out ensures BlanksBelow(x, cs.next) {
        if x in out1 && x !in pr.out {
          assert BlanksBelow(x, pr.next + 1);
        }
      }
    }
  }

  /** A page over an output that is below the counter owns its logical source and its clone map. */
  lemma EmitPageOwned(g: seq<Triple>, rule: Rule, pq: string, name: Term, pr: Progress,
                      out1: set<Triple>, cs0: CloneState, cs: CloneState)
    requires name.Named?
    requires out1 == EmitSource(g, rule.ls, pq, name, pr.out, pr.next)
    requires cs0 == CloneState(out1, map[], pr.next + 1)
    requires cs == ClonePageMaps(g, rule, name, cs0)
    requires SetBlanksBelow(pr.out, pr.next)
    ensures PageEmitted(cs.out, pr.next, cs.next, g, rule, pq, name)
  {
    assert AllocatedIn(cs0.bmap, cs0.next, cs0.next);
    assert Closed(g, cs0);
    assert NoSubject(pr.out, Blank(pr.next));
    assert DescribesPageSource(out1, pr.next, g, rule.ls, pq);
    assert DescribesPageSource(cs.out, pr.next, g, rule.ls, pq) by {
      forall p, o ensures Triple(Blank(pr.next), p, o) in cs.out <==> PageSourcePO(g, rule.ls, pq, p, o) {
        if Triple(Blank(pr.next), p, o) in cs.out && Triple(Blank(pr.next), p, o) !in out1 {
          assert false;
        }
      }
    }
    assert Triple(name, LogicalSource, Blank(pr.next)) in cs.out;
    assert LinkedClone(cs.out, g, rule.sm, name, SubjectMap, cs.bmap);
    assert LinkedClone(cs.out, g, rule.pom, name, PredicateObjectMap, cs.bmap);
    assert Closed(g, CloneState(cs.out, cs.bmap, 0)) by {
      assert Closed(g, cs);
    }
    assert OwnMap(cs.bmap, pr.next, cs.next) by {
      assert Wf(cs0);
      assert AllocatedIn(cs.bmap, pr.next + 1, cs.next);
    }
  }

  /** Every page of `pages[i..]` is in the output, owning identities within `[lo, hi)`. */
  ghost predicate PagesEmitted(out: set<Triple>, lo: nat, hi: nat, g: seq<Triple>, rule: Rule, query: string,
                               pages: seq<Pagination.Page>, i: nat)
  {
    forall j :: i <= j < |pages| ==>
      PageEmitted(out, lo, hi, g, rule, Pagination.PageQuery(query, pages[j]), PageName(rule.tm, pages[j].index))
  }

  /** Any two pages of `pages[i..]` own disjoint identity ranges within `[lo, hi)`. */
  ghost predicate PagesKeptApart(out: set<Triple>, lo: nat, hi: nat, g: seq<Triple>, rule: Rule, query: string,
                                 pages: seq<Pagination.Page>, i: nat)
  {
    forall j, k :: i <= j < k < |pages| ==>
      PagesApart(out, lo, hi, g,
        rule, Pagination.PageQuery(query, pages[j]), PageName(rule.tm, pages[j].index),
        rule, Pagination.PageQuery(query, pages[k]), PageName(rule.tm, pages[k].index))
  }

  /** The pages of a paginated rule are all in the output, each with identities of its own. */
  ghost predicate RulePagesEmitted(out: set<Triple>, lo: nat, hi: nat, g: seq<Triple>, rule: Rule, d: Decision)
  {
    d.Paginate? ==>
      PagesEmitted(out, lo, hi, g, rule, d.query, d.pages, 0) && PagesKeptApart(out, lo, hi, g, rule, d.query, d.pages, 0)
  }

  lemma RulePagesKept(out: set<Triple>, lo: nat, hi: nat, out': set<Triple>, lo': nat, hi': nat, above: nat,
                      g: seq<Triple>, rule: Rule, d: Decision)
    requires RulePagesEmitted(out, lo, hi, g, rule, d)
    requires out <= out' && lo' <= lo && hi <= hi' && hi <= above && AddsAbove(out, out', above)
    ensures RulePagesEmitted(out', lo', hi', g, rule, d)
  {
    if d.Paginate? {
      PagesKept(out, lo, hi, out', lo', hi', above, g, rule, d.query, d.pages, 0);
    }
  }

  lemma PagesKept(out: set<Triple>, lo: nat, hi: nat, out': set<Triple>, lo': nat, hi': nat, above: nat,
                  g: seq<Triple>, rule: Rule, query: string, pages: seq<Pagination.Page>, i: nat)
    requires PagesEmitted(out, lo, hi, g, rule, query, pages, i) && PagesKeptApart(out, lo, hi, g, rule, query, pages, i)
    requires out <= out' && lo' <= lo && hi <= hi' && hi <= above && AddsAbove(out, out', above)
    ensures PagesEmitted(out', lo', hi', g, rule, query, pages, i) && PagesKeptApart(out', lo', hi', g, rule, query, pages, i)
  {
    forall j | i <= j < |pages|
      ensures PageEmitted(out', lo', hi', g, rule, Pagination.PageQuery(query, pages[j]), PageName(rule.tm, pages[j].index))
    {
      PageEmittedKept(out, lo, hi, out', lo', hi', above, g, rule,
        Pagination.PageQuery(query, pages[j]), PageName(rule.tm, pages[j].index));
    }
    forall j, k | i <= j < k < |pages|
      ensures PagesApart(out', lo', hi', g,
        rule, Pagination.PageQuery(query, pages[j]), PageName(rule.tm, pages[j].index),
        rule, Pagination.PageQuery(query, pages[k]), PageName(rule.tm, pages[k].index))
    {
      PagesApartKept(out, lo, hi, out', lo', hi', above, g,
        rule, Pagination.PageQuery(query, pages[j]), PageName(rule.tm, pages[j].index),
        rule, Pagination.PageQuery(query, pages[k]), PageName(rule.tm, pages[k].index));
    }
  }

  /**
   * The pages of two rules lie on either side of some `b`: every page of
   * the first owns identities below it, every page of the second at or
   * above it.
   */
  ghost predicate RulesApart(out: set<Triple>, lo: nat, hi: nat, g: seq<Triple>,
                             rule1: Rule, d1: Decision, rule2: Rule, d2: Decision)
  {
    exists b: nat :: lo <= b <= hi
      && RulePagesEmitted(out, lo, b, g, rule1, d1)
      && RulePagesEmitted(out, b, hi, g, rule2, d2)
  }

  lemma RulesApartKept(out: set<Triple>, lo: nat, hi: nat, out': set<Triple>, lo': nat, hi': nat, above: nat,
                       g: seq<Triple>, rule1: Rule, d1: Decision, rule2: Rule, d2: Decision)
    requires RulesApart(out, lo, hi, g, rule1, d1, rule2, d2)
    requires out <= out' && lo' <= lo && hi <= hi' && hi <= above && AddsAbove(out, out', above)
    ensures RulesApart(out', lo', hi', g, rule1, d1, rule2, d2)
  {
    var b: nat :| lo <= b <= hi
      && RulePagesEmitted(out, lo, b, g, rule1, d1)
      && RulePagesEmitted(out, b, hi, g, rule2, d2);
    RulePagesKept(out, lo, b, out', lo', b, above, g, rule1, d1);
    RulePagesKept(out, b, hi, out', b, hi', above, g, rule2, d2);
  }

  /** Any page of the first of two rules kept apart and any page of the second are apart. */
  lemma RulesApartPages(out: set<Triple>, lo: nat, hi: nat, g: seq<Triple>,
                        rule1: Rule, d1: Decision, rule2: Rule, d2: Decision, i: nat, j: nat)
    requires RulesApart(out, lo, hi, g, rule1, d1, rule2, d2)
    requires d1.Paginate? && d2.Paginate? && i < |d1.pages| && j < |d2.pages|
    ensures PagesApart(out, lo, hi, g,
      rule1, Pagination.PageQuery(d1.query, d1.pages[i]), PageName(rule1.tm, d1.pages[i].index),
      rule2, Pagination.PageQuery(d2.query, d2.pages[j]), PageName(rule2.tm, d2.pages[j].index))
  {
    var b: nat :| lo <= b <= hi
      && RulePagesEmitted(out, lo, b, g, rule1, d1)
      && RulePagesEmitted(out, b, hi, g, rule2, d2);
    assert PageEmitted(out, lo, b, g, rule1, Pagination.PageQuery(d1.query, d1.pages[i]), PageName(rule1.tm, d1.pages[i].index));
    assert PageEmitted(out, b, hi, g, rule2, Pagination.PageQuery(d2.query, d2.pages[j]), PageName(rule2.tm, d2.pages[j].index));
  }

  /** Two pages of rules kept apart stay apart once fresher triples are added. */
  lemma RulesApartLater(out: set<Triple>, lo: nat, hi: nat, out': set<Triple>, hi': nat, g: seq<Triple>,
                        rule1: Rule, d1: Decision, rule2: Rule, d2: Decision, i: nat, j: nat)
    requires RulesApart(out, lo, hi, g, rule1, d1, rule2, d2)
    requires d1.Paginate? && d2.Paginate? && i < |d1.pages| && j < |d2.pages|
    requires out <= out' && hi <= hi' && AddsAbove(out, out', hi)
    ensures PagesApart(out', lo, hi', g,
      rule1, Pagination.PageQuery(d1.query, d1.pages[i]), PageName(rule1.tm, d1.pages[i].index),
      rule2, Pagination.PageQuery(d2.query, d2.pages[j]), PageName(rule2.tm, d2.pages[j].index))
  {
    RulesApartPages(out, lo, hi, g, rule1, d1, rule2, d2, i, j);
    PagesApartKept(out, lo, hi, out', lo, hi', hi, g,
      rule1, Pagination.PageQuery(d1.query, d1.pages[i]), PageName(rule1.tm, d1.pages[i].index),
      rule2, Pagination.PageQuery(d2.query, d2.pages[j]), PageName(rule2.tm, d2.pages[j].index));
  }

  /**
   * The page loop (lines 120-143) from page `i` on. Each page draws its
   * identities after the previous one's, so no two pages share a blank node.
   */
  function EmitPages(g: seq<Triple>, rule: Rule, query: string, pages: seq<Pagination.Page>, i: nat, pr: Progress)
    : (r: Progress)
    requires i <= |pages|
    ensures pr.out <= r.out && pr.next <= r.next
    ensures AddsAbove(pr.out, r.out, pr.next)
    ensures Fresh(g, pr.out, pr.next) ==> Fresh(g, r.out, r.next)
    ensures Fresh(g, pr.out, pr.next) ==>
      && PagesEmitted(r.out, pr.next, r.next, g, rule, query, pages, i)
      && PagesKeptApart(r.out, pr.next, r.next, g, rule, query, pages, i)
    decreases |pages| - i
  {
    if i == |pages| then pr
    else
      var p1 := EmitPage(g, rule, query, pages[i], pr);
      var r := EmitPages(g, rule, query, pages, i + 1, p1);
      EmitPagesStep(g, rule, query, pages, i, pr, p1, r);
      r
  }

  lemma EmitPagesStep(g: seq<Triple>, rule: Rule, query: string, pages: seq<Pagination.Page>, i: nat,
                      pr: Progress, p1: Progress, r: Progress)
    requires i < |pages|
    requires pr.out <= p1.out && pr.next < p1.next && AddsAbove(pr.out, p1.out, pr.next)
    requires Fresh(g, pr.out, pr.next) ==> Fresh(g, p1.out, p1.next)
    requires SetBlanksBelow(pr.out, pr.next) ==>
      PageEmitted(p1.out, pr.next, p1.next, g, rule, Pagination.PageQuery(query, pages[i]), PageName(rule.tm, pages[i].index))
    requires p1.out <= r.out && p1.next <= r.next && AddsAbove(p1.out, r.out, p1.next)
    requires Fresh(g, p1.out, p1.next) ==> Fresh(g, r.out, r.next)
    requires Fresh(g, p1.out, p1.next) ==>
      && PagesEmitted(r.out, p1.next, r.next, g, rule, query, pages, i + 1)
      && PagesKeptApart(r.out, p1.next, r.next, g, rule, query, pages, i + 1)
    ensures AddsAbove(pr.out, r.out, pr.next)
    ensures Fresh(g, pr.out, pr.next) ==>
      && PagesEmitted(r.out, pr.next, r.next, g, rule, query, pages, i)
      && PagesKeptApart(r.out, pr.next, r.next, g, rule, query, pages, i)
  {
    if Fresh(g, pr.out, pr.next) {
      var q, name := Pagination.PageQuery(query, pages[i]), PageName(rule.tm, pages[i].index);
      PageEmittedKept(p1.out, pr.next, p1.next, r.out, pr.next, p1.next, p1.next, g, rule, q, name);
      PageEmittedKept(r.out, pr.next, p1.next, r.out, pr.next, r.next, r.next, g, rule, q, name);
      PagesKept(r.out, p1.next, r.next, r.out, pr.next, r.next, r.next, g, rule, query, pages, i + 1);
      forall k | i < k < |pages|
        ensures PagesApart(r.out, pr.next, r.next, g,
          rule, q, name, rule, Pagination.PageQuery(query, pages[k]), PageName(rule.tm, pages[k].index))
      {
        assert PageEmitted(r.out, p1.next, r.next, g, rule,
          Pagination.PageQuery(query, pages[k]), PageName(rule.tm, pages[k].index));
      }
    }
  }

  // ---------------------------------------------------------------------
  // The pass over all triples maps.
  // ---------------------------------------------------------------------

  /** The rewriter's state: output, counter, the carry-over queue (in insertion order) and the paginated triples maps. */
  datatype RewriteState = RewriteState(out: set<Triple>, next: nat, toCopy: seq<Term>, paginated: set<Term>)

  /** Adds `t` to the carry-over queue, keeping its first insertion position. */
  function Queue(toCopy: seq<Term>, t: Term): (r: seq<Term>)
    ensures forall u :: u in r <==> u in toCopy || u == t
  {
    if t in toCopy then toCopy else toCopy + [t]
  }

  /** Adds `t` to the carry-over queue when it is present. */
  function QueueIfPresent(toCopy: seq<Term>, t: Option<Term>): (r: seq<Term>)
    ensures forall u :: u in r <==> u in toCopy || t == Some(u)
  {
    match t
    case None => toCopy
    case Some(v) => Queue(toCopy, v)
  }

  /** Lines 107-109 and 147-149: the rule, its subject map and its predicate-object map are queued. */
  function QueueRule(toCopy: seq<Term>, rule: Rule): (r: seq<Term>)
    ensures forall u :: u in r <==> u in toCopy || u == rule.tm || rule.sm == Some(u) || rule.pom == Some(u)
  {
    QueueIfPresent(QueueIfPresent(Queue(toCopy, rule.tm), rule.sm), rule.pom)
  }

  /** The loop body of lines 92-149 for triples map `tm`. */
  function ProcessRule(g: seq<Triple>, tm: Term, rows: string -> nat, cores: nat, st: RewriteState): (r: RewriteState)
    requires cores >= 1 && HasObject(g, tm, LogicalSource)
    ensures st.out <= r.out && st.next <= r.next && AddsAbove(st.out, r.out, st.next)
    ensures Fresh(g, st.out, st.next) ==> Fresh(g, r.out, r.next)
    ensures forall u :: u in st.toCopy ==> u in r.toCopy
    ensures Decide(g, ReadRule(g, tm), rows, cores).CarryOver? ==>
      && r.paginated == st.paginated
      && r.toCopy == QueueRule(st.toCopy, ReadRule(g, tm))
    ensures Decide(g, ReadRule(g, tm), rows, cores).Paginate? ==>
      r.paginated == st.paginated + {tm} && r.toCopy == st.toCopy
    ensures Fresh(g, st.out, st.next) ==>
      RulePagesEmitted(r.out, st.next, r.next, g, ReadRule(g, tm), Decide(g, ReadRule(g, tm), rows, cores))
  {
    var rule := ReadRule(g, tm);
    match Decide(g, rule, rows, cores)
    case CarryOver => st.(toCopy := QueueRule(st.toCopy, rule))
    case Paginate(q, limit, pages) =>
      var pr := EmitPages(g, rule, q, pages, 0, Progress(st.out, st.next));
      RewriteState(pr.out, pr.next, st.toCopy, st.paginated + {tm})
  }

  /** What the pass over the rules records for triples map `tm`. */
  ghost predicate RuleRecorded(g: seq<Triple>, tm: Term, rows: string -> nat, cores: nat, r: RewriteState)
    requires cores >= 1 && HasObject(g, tm, LogicalSource)
  {
    var rule := ReadRule(g, tm);
    var d := Decide(g, rule, rows, cores);
    && (d.CarryOver? ==> tm in r.toCopy && (rule.sm.Some? ==> rule.sm.value in r.toCopy)
                         && (rule.pom.Some? ==> rule.pom.value in r.toCopy))
    && (d.Paginate? ==> tm in r.paginated)
  }

  /** `u` is queued for the carry-over pass by triples map `t`: `t` itself, its subject map or its predicate-object map. */
  predicate QueuedBy(g: seq<Triple>, rows: string -> nat, cores: nat, t: Term, u: Term)
    requires cores >= 1
  {
    && HasObject(g, t, LogicalSource)
    && Decide(g, ReadRule(g, t), rows, cores).CarryOver?
    && (u == t || ReadRule(g, t).sm == Some(u) || ReadRule(g, t).pom == Some(u))
  }

  /** The pages of triples map `tm1` are apart from those of `tm2`, and come first. */
  ghost predicate MapsApart(out: set<Triple>, lo: nat, hi: nat, g: seq<Triple>, tm1: Term, tm2: Term,
                            rows: string -> nat, cores: nat)
    requires cores >= 1 && HasObject(g, tm1, LogicalSource) && HasObject(g, tm2, LogicalSource)
  {
    RulesApart(out, lo, hi, g,
      ReadRule(g, tm1), Decide(g, ReadRule(g, tm1), rows, cores),
      ReadRule(g, tm2), Decide(g, ReadRule(g, tm2), rows, cores))
  }

  /** The pages of any two of the triples maps `tms[k..]` are apart, the earlier map's pages first. */
  ghost predicate RulesKeptApart(out: set<Triple>, lo: nat, hi: nat, g: seq<Triple>, tms: seq<Term>, k: nat,
                                 rows: string -> nat, cores: nat)
    requires cores >= 1 && forall t :: t in tms ==> HasObject(g, t, LogicalSource)
  {
    forall j1, j2 :: k <= j1 < j2 < |tms| ==> MapsApart(out, lo, hi, g, tms[j1], tms[j2], rows, cores)
  }

  /** The loop of lines 92-149 over the triples maps `tms[k..]`. */
  function ProcessRules(g: seq<Triple>, tms: seq<Term>, k: nat, rows: string -> nat, cores: nat, st: RewriteState)
    : (r: RewriteState)
    requires cores >= 1 && k <= |tms|
    requires forall t :: t in tms ==> HasObject(g, t, LogicalSource)
    ensures st.out <= r.out && st.next <= r.next && AddsAbove(st.out, r.out, st.next)
    ensures Fresh(g, st.out, st.next) ==> Fresh(g, r.out, r.next)
    ensures forall u :: u in st.toCopy ==> u in r.toCopy
    ensures st.paginated <= r.paginated
    ensures forall t :: t in r.paginated && t !in st.paginated ==>
      HasObject(g, t, LogicalSource) && Decide(g, ReadRule(g, t), rows, cores).Paginate?
    ensures forall j :: k <= j < |tms| ==> RuleRecorded(g, tms[j], rows, cores, r)
    ensures forall u :: u in r.toCopy ==>
      u in st.toCopy || exists j :: k <= j < |tms| && QueuedBy(g, rows, cores, tms[j], u)
    ensures Fresh(g, st.out, st.next) ==> forall j :: k <= j < |tms| ==>
      RulePagesEmitted(r.out, st.next, r.next, g, ReadRule(g, tms[j]), Decide(g, ReadRule(g, tms[j]), rows, cores))
    ensures Fresh(g, st.out, st.next) ==> RulesKeptApart(r.out, st.next, r.next, g, tms, k, rows, cores)
    decreases |tms| - k
  {
    if k == |tms| then st
    else
      var st1 := ProcessRule(g, tms[k], rows, cores, st);
      var r := ProcessRules(g, tms, k + 1, rows, cores, st1);
      ProcessRulesStep(g, tms, k, rows, cores, st, st1, r);
      ProcessRulesApartStep(g, tms, k, rows, cores, st, st1, r);
      r
  }

  /** The rule at `k` emits its pages before every later rule, so below all of theirs. */
  lemma ProcessRulesApartStep(g: seq<Triple>, tms: seq<Term>, k: nat, rows: string -> nat, cores: nat,
                              st: RewriteState, st1: RewriteState, r: RewriteState)
    requires cores >= 1 && k < |tms|
    requires forall t :: t in tms ==> HasObject(g, t, LogicalSource)
    requires st1 == ProcessRule(g, tms[k], rows, cores, st)
    requires st1.out <= r.out && st1.next <= r.next && AddsAbove(st1.out, r.out, st1.next)
    requires Fresh(g, st1.out, st1.next) ==> forall j :: k + 1 <= j < |tms| ==>
      RulePagesEmitted(r.out, st1.next, r.next, g, ReadRule(g, tms[j]), Decide(g, ReadRule(g, tms[j]), rows, cores))
    requires Fresh(g, st1.out, st1.next) ==> RulesKeptApart(r.out, st1.next, r.next, g, tms, k + 1, rows, cores)
    ensures Fresh(g, st.out, st.next) ==> RulesKeptApart(r.out, st.next, r.next, g, tms, k, rows, cores)
  {
    if Fresh(g, st.out, st.next) {
      var rule := ReadRule(g, tms[k]);
      var d := Decide(g, rule, rows, cores);
      RulePagesKept(st1.out, st.next, st1.next, r.out, st.next, st1.next, st1.next, g, rule, d);
      forall j1, j2 | k <= j1 < j2 < |tms|
        ensures MapsApart(r.out, st.next, r.next, g, tms[j1], tms[j2], rows, cores)
      {
        var rule2 := ReadRule(g, tms[j2]);
        var d2 := Decide(g, rule2, rows, cores);
        if j1 == k {
          assert RulePagesEmitted(r.out, st1.next, r.next, g, rule2, d2);
          assert RulesApart(r.out, st.next, r.next, g, rule, d, rule2, d2);
        } else {
          RulesApartKept(r.out, st1.next, r.next, r.out, st.next, r.next, r.next, g,
            ReadRule(g, tms[j1]), Decide(g, ReadRule(g, tms[j1]), rows, cores), rule2, d2);
        }
      }
    }
  }

  lemma ProcessRulesStep(g: seq<Triple>, tms: seq<Term>, k: nat, rows: string -> nat, cores: nat,
                         st: RewriteState, st1: RewriteState, r: RewriteState)
    requires cores >= 1 && k < |tms|
    requires forall t :: t in tms ==> HasObject(g, t, LogicalSource)
    requires st1 == ProcessRule(g, tms[k], rows, cores, st)
    requires st1.out <= r.out && st1.next <= r.next && AddsAbove(st1.out, r.out, st1.next)
    requires Fresh(g, st1.out, st1.next) ==> Fresh(g, r.out, r.next)
    requires forall u :: u in st1.toCopy ==> u in r.toCopy
    requires forall u :: u in r.toCopy ==>
      u in st1.toCopy || exists j :: k + 1 <= j < |tms| && QueuedBy(g, rows, cores, tms[j], u)
    requires st1.paginated <= r.paginated
    requires forall t :: t in r.paginated && t !in st1.paginated ==>
      HasObject(g, t, LogicalSource) && Decide(g, ReadRule(g, t), rows, cores).Paginate?
    requires forall j :: k + 1 <= j < |tms| ==> RuleRecorded(g, tms[j], rows, cores, r)
    requires Fresh(g, st1.out, st1.next) ==> forall j :: k + 1 <= j < |tms| ==>
      RulePagesEmitted(r.out, st1.next, r.next, g, ReadRule(g, tms[j]), Decide(g, ReadRule(g, tms[j]), rows, cores))
    ensures AddsAbove(st.out, r.out, st.next)
    ensures forall t :: t in r.paginated && t !in st.paginated ==>
      HasObject(g, t, LogicalSource) && Decide(g, ReadRule(g, t), rows, cores).Paginate?
    ensures forall j :: k <= j < |tms| ==> RuleRecorded(g, tms[j], rows, cores, r)
    ensures forall u :: u in r.toCopy ==>
      u in st.toCopy || exists j :: k <= j < |tms| && QueuedBy(g, rows, cores, tms[j], u)
    ensures Fresh(g, st.out, st.next) ==> forall j :: k <= j < |tms| ==>
      RulePagesEmitted(r.out, st.next, r.next, g, ReadRule(g, tms[j]), Decide(g, ReadRule(g, tms[j]), rows, cores))
  {
    var tm := tms[k];
    var rule := ReadRule(g, tm);
    var d := Decide(g, rule, rows, cores);
    assert RuleRecorded(g, tm, rows, cores, r);
    forall u | u in r.toCopy && u !in st.toCopy
      ensures exists j :: k <= j < |tms| && QueuedBy(g, rows, cores, tms[j], u)
    {
      if u in st1.toCopy {
        assert QueuedBy(g, rows, cores, tms[k], u);
      } else {
        var j :| k + 1 <= j < |tms| && QueuedBy(g, rows, cores, tms[j], u);
      }
    }
    if Fresh(g, st.out, st.next) {
      RulePagesKept(st1.out, st.next, st1.next, r.out, st.next, r.next, st1.next, g, rule, d);
      forall j | k + 1 <= j < |tms|
        ensures RulePagesEmitted(r.out, st.next, r.next, g, ReadRule(g, tms[j]), Decide(g, ReadRule(g, tms[j]), rows, cores))
      {
        RulePagesKept(r.out, st1.next, r.next, r.out, st.next, r.next, r.next, g,
          ReadRule(g, tms[j]), Decide(g, ReadRule(g, tms[j]), rows, cores));
      }
    }
  }

  /**
   * Every named subject that appears in `after` and not in `before` is a
   * queued node from position `i` on that is not a paginated triples map.
   */
  ghost predicate CarriedSubjects(toCopy: seq<Term>, paginated: set<Term>, i: nat, before: set<Triple>, after: set<Triple>)
  {
    forall x :: x in after && x !in before && !x.s.Blank? ==>
      exists j :: i <= j < |toCopy| && toCopy[j] !in paginated && x.s == toCopy[j]
  }

  /**
   * Lines 154-157: every queued node that is not a paginated triples map
   * is cloned, all with one shared blank-node map; a paginated one is
   * skipped, so no triple with it as subject is added.
   */
  function CarryOverPass(g: seq<Triple>, toCopy: seq<Term>, paginated: set<Term>, i: nat, cs: CloneState)
    : (r: CloneState)
    requires i <= |toCopy|
    ensures Grows(g, cs, r)
    ensures Wf(cs) ==> Wf(r)
    ensures Closed(g, cs) ==> Closed(g, r)
    ensures Closed(g, cs) ==> forall j :: i <= j < |toCopy| && toCopy[j] !in paginated ==>
      NodeDone(g, toCopy[j], r.bmap, r.out)
    ensures CarriedSubjects(toCopy, paginated, i, cs.out, r.out)
    decreases |toCopy| - i
  {
    if i == |toCopy| then cs
    else if toCopy[i] in paginated then
      var r := CarryOverPass(g, toCopy, paginated, i + 1, cs);
      CarriedSubjectsWiden(toCopy, paginated, i, cs.out, r.out);
      r
    else
      var cs1 := CloneTerm(g, toCopy[i], cs).st;
      var r := CarryOverPass(g, toCopy, paginated, i + 1, cs1);
      CarryOverStep(g, toCopy, paginated, i, cs, cs1, r);
      r
  }

  lemma CarryOverStep(g: seq<Triple>, toCopy: seq<Term>, paginated: set<Term>, i: nat,
                      cs: CloneState, cs1: CloneState, r: CloneState)
    requires i < |toCopy| && toCopy[i] !in paginated
    requires cs1 == CloneTerm(g, toCopy[i], cs).st
    requires Grows(g, cs1, r)
    requires Closed(g, cs1) ==> Closed(g, r)
    requires Closed(g, cs1) ==> forall j :: i + 1 <= j < |toCopy| && toCopy[j] !in paginated ==>
      NodeDone(g, toCopy[j], r.bmap, r.out)
    requires CarriedSubjects(toCopy, paginated, i + 1, cs1.out, r.out)
    ensures Grows(g, cs, r)
    ensures Closed(g, cs) ==> Closed(g, r)
    ensures Closed(g, cs) ==> forall j :: i <= j < |toCopy| && toCopy[j] !in paginated ==>
      NodeDone(g, toCopy[j], r.bmap, r.out)
    ensures CarriedSubjects(toCopy, paginated, i, cs.out, r.out)
  {
    GrowsTrans(g, cs, cs1, r);
    NamedObjectLinkedOnly(g, toCopy[i], cs);
    forall x | x in r.out && x !in cs.out && !x.s.Blank?
      ensures exists j :: i <= j < |toCopy| && toCopy[j] !in paginated && x.s == toCopy[j]
    {
      if x in cs1.out {
        assert x.s == toCopy[i];
      } else {
        var j :| i + 1 <= j < |toCopy| && toCopy[j] !in paginated && x.s == toCopy[j];
      }
    }
    if Closed(g, cs) {
      CloneClosed(g, toCopy[i], cs);
      NodeDoneMonotone(g, toCopy[i], cs1.bmap, cs1.out, r.bmap, r.out);
    }
  }

  /** A skipped position adds nothing, so what the rest of the pass adds is carried from `i` on as well. */
  lemma CarriedSubjectsWiden(toCopy: seq<Term>, paginated: set<Term>, i: nat, before: set<Triple>, after: set<Triple>)
    requires CarriedSubjects(toCopy, paginated, i + 1, before, after)
    ensures CarriedSubjects(toCopy, paginated, i, before, after)
  {
    forall x | x in after && x !in before && !x.s.Blank?
      ensures exists j :: i <= j < |toCopy| && toCopy[j] !in paginated && x.s == toCopy[j]
    {
      var j :| i + 1 <= j < |toCopy| && toCopy[j] !in paginated && x.s == toCopy[j];
    }
  }

  /** The rewritten document, with the bookkeeping the rewrite kept. */
  datatype Output = Output(graph: set<Triple>, next: nat, carryOver: seq<Term>, paginated: set<Term>,
                           carryMap: map<nat, nat>)

  /**
   * `copy_mapping_with_query` on an input graph `g`, a row counter `rows`,
   * `cores` workers and a blank-node counter starting at `next`.
   */
  function Rewrite(g: seq<Triple>, rows: string -> nat, cores: nat, next: nat): (r: Output)
    requires cores >= 1
    ensures GraphBlanksBelow(g, next) ==> SetBlanksBelow(r.graph, r.next)
    ensures forall u :: u in r.carryOver && u !in r.paginated ==> NodeDone(g, u, r.carryMap, r.graph)
    ensures Closed(g, CloneState(r.graph, r.carryMap, r.next))
    ensures OwnMap(r.carryMap, next, r.next)
  {
    var st0 := RewriteState({}, next, [], {});
    var st := ProcessRules(g, RuleSubjects(g), 0, rows, cores, st0);
    var cs0 := CloneState(st.out, map[], st.next);
    var cs := CarryOverPass(g, st.toCopy, st.paginated, 0, cs0);
    CarryOverFresh(g, st.out, st.next, cs);
    Output(cs.out, cs.next, st.toCopy, st.paginated, cs.bmap)
  }

  lemma CarryOverFresh(g: seq<Triple>, out: set<Triple>, next: nat, cs: CloneState)
    requires Grows(g, CloneState(out, map[], next), cs)
    requires Wf(cs)
    ensures AddsAbove(out, cs.out, next)
    ensures Fresh(g, out, next) ==> Fresh(g, cs.out, cs.next)
    ensures OwnMap(cs.bmap, next, cs.next)
  {
    GrowsAllocates(g, CloneState(out, map[], next), cs, next);
  }

  // ---------------------------------------------------------------------
  // Properties of the whole rewrite.
  // ---------------------------------------------------------------------

  /** The pass over all triples maps, from an empty output, with the order of their pages. */
  function RulesVisited(g: seq<Triple>, rows: string -> nat, cores: nat, next: nat): (st: RewriteState)
    requires cores >= 1
    ensures GraphBlanksBelow(g, next) ==> RulesKeptApart(st.out, next, st.next, g, RuleSubjects(g), 0, rows, cores)
  {
    assert Fresh(g, {}, next) <== GraphBlanksBelow(g, next);
    ProcessRules(g, RuleSubjects(g), 0, rows, cores, RewriteState({}, next, [], {}))
  }

  /** The rule-state pass of `Rewrite`, named so the theorems below can refer to it. */
  function RulePass(g: seq<Triple>, rows: string -> nat, cores: nat, next: nat): (st: RewriteState)
    requires cores >= 1
    ensures Rewrite(g, rows, cores, next).carryOver == st.toCopy
    ensures Rewrite(g, rows, cores, next).paginated == st.paginated
    ensures st.out <= Rewrite(g, rows, cores, next).graph && st.next <= Rewrite(g, rows, cores, next).next
    ensures AddsAbove(st.out, Rewrite(g, rows, cores, next).graph, st.next)
    ensures next <= st.next && OwnMap(Rewrite(g, rows, cores, next).carryMap, st.next, Rewrite(g, rows, cores, next).next)
  {
    var st := RulesVisited(g, rows, cores, next);
    CarryOverFresh(g, st.out, st.next, CarryOverPass(g, st.toCopy, st.paginated, 0, CloneState(st.out, map[], st.next)));
    st
  }

  /**
   * The carry-over pass skips paginated triples maps: every triple it adds
   * whose subject is a named node has as subject a queued node that is not
   * a paginated triples map. So a named paginated triples map never has its
   * own triples copied next to its pages, even when another triples map
   * uses it as its subject map or predicate-object map.
   */
  lemma CarryOverSkipsPaginated(g: seq<Triple>, rows: string -> nat, cores: nat, next: nat)
    requires cores >= 1
    ensures var st := RulePass(g, rows, cores, next);
      var o := Rewrite(g, rows, cores, next);
      forall x :: x in o.graph && x !in st.out && !x.s.Blank? ==> x.s in o.carryOver && x.s !in o.paginated
  {
    var st := RulePass(g, rows, cores, next);
    var o := Rewrite(g, rows, cores, next);
    var cs := CarryOverPass(g, st.toCopy, st.paginated, 0, CloneState(st.out, map[], st.next));
    assert o.graph == cs.out;
  }

  /**
   * Every triples map is dispatched by `Decide`: it is paginated exactly
   * when its row count exceeds the threshold, and otherwise it is queued
   * for the carry-over pass together with its subject map and
   * predicate-object map.
   */
  lemma RuleDispatch(g: seq<Triple>, rows: string -> nat, cores: nat, next: nat, tm: Term)
    requires cores >= 1 && HasObject(g, tm, LogicalSource)
    ensures tm in Rewrite(g, rows, cores, next).paginated <==> Decide(g, ReadRule(g, tm), rows, cores).Paginate?
    ensures Decide(g, ReadRule(g, tm), rows, cores).CarryOver? ==>
      && tm in Rewrite(g, rows, cores, next).carryOver
      && (ReadRule(g, tm).sm.Some? ==> ReadRule(g, tm).sm.value in Rewrite(g, rows, cores, next).carryOver)
      && (ReadRule(g, tm).pom.Some? ==> ReadRule(g, tm).pom.value in Rewrite(g, rows, cores, next).carryOver)
  {
    var tms := RuleSubjects(g);
    var st := RulePass(g, rows, cores, next);
    var j :| 0 <= j < |tms| && tms[j] == tm;
    assert RuleRecorded(g, tms[j], rows, cores, st);
  }

  /**
   * A carried-over triples map is cloned whole, and so are its subject map
   * and predicate-object map unless they are themselves paginated triples maps.
   */
  lemma CarriedRuleCopied(g: seq<Triple>, rows: string -> nat, cores: nat, next: nat, tm: Term)
    requires cores >= 1 && HasObject(g, tm, LogicalSource)
    requires Decide(g, ReadRule(g, tm), rows, cores).CarryOver?
    ensures NodeDone(g, tm, Rewrite(g, rows, cores, next).carryMap, Rewrite(g, rows, cores, next).graph)
    ensures ReadRule(g, tm).sm.Some? && !Paginated(g, rows, cores, ReadRule(g, tm).sm.value) ==>
      NodeDone(g, ReadRule(g, tm).sm.value, Rewrite(g, rows, cores, next).carryMap, Rewrite(g, rows, cores, next).graph)
    ensures ReadRule(g, tm).pom.Some? && !Paginated(g, rows, cores, ReadRule(g, tm).pom.value) ==>
      NodeDone(g, ReadRule(g, tm).pom.value, Rewrite(g, rows, cores, next).carryMap, Rewrite(g, rows, cores, next).graph)
  {
    var rule := ReadRule(g, tm);
    RuleDispatch(g, rows, cores, next, tm);
    CarriedDone(g, rows, cores, next, tm);
    if rule.sm.Some? && !Paginated(g, rows, cores, rule.sm.value) {
      CarriedDone(g, rows, cores, next, rule.sm.value);
    }
    if rule.pom.Some? && !Paginated(g, rows, cores, rule.pom.value) {
      CarriedDone(g, rows, cores, next, rule.pom.value);
    }
  }

  /** `u` is a triples map that `Decide` paginates. */
  predicate Paginated(g: seq<Triple>, rows: string -> nat, cores: nat, u: Term)
    requires cores >= 1
  {
    HasObject(g, u, LogicalSource) && Decide(g, ReadRule(g, u), rows, cores).Paginate?
  }

  /** A queued node that is not a paginated triples map is in the output with its node graph. */
  lemma CarriedDone(g: seq<Triple>, rows: string -> nat, cores: nat, next: nat, u: Term)
    requires cores >= 1
    ensures u in Rewrite(g, rows, cores, next).carryOver && !Paginated(g, rows, cores, u) ==>
      NodeDone(g, u, Rewrite(g, rows, cores, next).carryMap, Rewrite(g, rows, cores, next).graph)
  {
    var o := Rewrite(g, rows, cores, next);
    if u in o.carryOver && !Paginated(g, rows, cores, u) && u in o.paginated {
      PaginatedAreRules(g, rows, cores, next, u);
      assert false;
    }
  }

  /** Only triples maps that `Decide` paginates are recorded as paginated. */
  lemma PaginatedAreRules(g: seq<Triple>, rows: string -> nat, cores: nat, next: nat, t: Term)
    requires cores >= 1
    ensures t in Rewrite(g, rows, cores, next).paginated ==> Paginated(g, rows, cores, t)
  {
    var st := RulePass(g, rows, cores, next);
  }

  /**
   * A paginated triples map with `cores` pages: page `i` is in the output
   * under the name `<tm>_Page<i+1>`, with a logical source whose query
   * reads rows from `i * limit` up to `(i + 1) * limit` or the row count,
   * whichever is smaller. Its blank nodes are
   * numbered below some `b`, and the carry-over pass numbers its clones
   * from `b` on.
   */
  lemma PaginatedRuleExpanded(g: seq<Triple>, rows: string -> nat, cores: nat, next: nat, tm: Term, i: nat)
    requires cores >= 1 && HasObject(g, tm, LogicalSource) && GraphBlanksBelow(g, next) && i < cores
    ensures Decide(g, ReadRule(g, tm), rows, cores).Paginate? ==>
      && |Decide(g, ReadRule(g, tm), rows, cores).pages| == cores
      && Decide(g, ReadRule(g, tm), rows, cores).pages[i].offset == i * Decide(g, ReadRule(g, tm), rows, cores).limit
      && exists b: nat ::
        && PageEmitted(Rewrite(g, rows, cores, next).graph, next, b, g, ReadRule(g, tm),
             Pagination.PageQuery(Decide(g, ReadRule(g, tm), rows, cores).query, Decide(g, ReadRule(g, tm), rows, cores).pages[i]),
             PageName(tm, i))
        && OwnMap(Rewrite(g, rows, cores, next).carryMap, b, Rewrite(g, rows, cores, next).next)
  {
    if Decide(g, ReadRule(g, tm), rows, cores).Paginate? {
      PageExpanded(g, rows, cores, next, tm, i);
    }
  }

  /** Where the pages of a paginated triples map sit among the rewrite's identities. */
  lemma RulePagesPlaced(g: seq<Triple>, rows: string -> nat, cores: nat, next: nat, tm: Term) returns (b: nat)
    requires cores >= 1 && HasObject(g, tm, LogicalSource) && GraphBlanksBelow(g, next)
    ensures next <= b <= Rewrite(g, rows, cores, next).next
    ensures RulePagesEmitted(Rewrite(g, rows, cores, next).graph, next, b, g, ReadRule(g, tm), Decide(g, ReadRule(g, tm), rows, cores))
    ensures OwnMap(Rewrite(g, rows, cores, next).carryMap, b, Rewrite(g, rows, cores, next).next)
  {
    var tms := RuleSubjects(g);
    var rule := ReadRule(g, tm);
    var o := Rewrite(g, rows, cores, next);
    var st := ProcessRules(g, tms, 0, rows, cores, RewriteState({}, next, [], {}));
    assert st == RulePass(g, rows, cores, next);
    var j :| 0 <= j < |tms| && tms[j] == tm;
    assert Fresh(g, {}, next);
    RulePagesKept(st.out, next, st.next, o.graph, next, st.next, st.next, g, rule, Decide(g, rule, rows, cores));
    b := st.next;
  }

  lemma PageExpanded(g: seq<Triple>, rows: string -> nat, cores: nat, next: nat, tm: Term, i: nat)
    requires cores >= 1 && HasObject(g, tm, LogicalSource) && GraphBlanksBelow(g, next) && i < cores
    requires Decide(g, ReadRule(g, tm), rows, cores).Paginate?
    ensures |Decide(g, ReadRule(g, tm), rows, cores).pages| == cores
    ensures exists b: nat ::
      && PageEmitted(Rewrite(g, rows, cores, next).graph, next, b, g, ReadRule(g, tm),
           Pagination.PageQuery(Decide(g, ReadRule(g, tm), rows, cores).query, Decide(g, ReadRule(g, tm), rows, cores).pages[i]),
           PageName(tm, i))
      && OwnMap(Rewrite(g, rows, cores, next).carryMap, b, Rewrite(g, rows, cores, next).next)
  {
    var d := Decide(g, ReadRule(g, tm), rows, cores);
    var b := RulePagesPlaced(g, rows, cores, next, tm);
    assert d.pages[i].index == i;
    assert PagesEmitted(Rewrite(g, rows, cores, next).graph, next, b, g, ReadRule(g, tm), d.query, d.pages, 0);
  }

  /**
   * Two different pages of a paginated triples map own disjoint identity
   * ranges, so they share no logical source and no cloned blank node.
   */
  lemma PaginatedPagesApart(g: seq<Triple>, rows: string -> nat, cores: nat, next: nat, tm: Term, i: nat, j: nat)
    requires cores >= 1 && HasObject(g, tm, LogicalSource) && GraphBlanksBelow(g, next) && i < j < cores
    ensures Decide(g, ReadRule(g, tm), rows, cores).Paginate? ==>
      PagesApart(Rewrite(g, rows, cores, next).graph, next, Rewrite(g, rows, cores, next).next, g,
        ReadRule(g, tm),
        Pagination.PageQuery(Decide(g, ReadRule(g, tm), rows, cores).query, Decide(g, ReadRule(g, tm), rows, cores).pages[i]),
        PageName(tm, i),
        ReadRule(g, tm),
        Pagination.PageQuery(Decide(g, ReadRule(g, tm), rows, cores).query, Decide(g, ReadRule(g, tm), rows, cores).pages[j]),
        PageName(tm, j))
  {
    var d := Decide(g, ReadRule(g, tm), rows, cores);
    if d.Paginate? {
      var o := Rewrite(g, rows, cores, next);
      var b := RulePagesPlaced(g, rows, cores, next, tm);
      assert d.pages[i].index == i && d.pages[j].index == j;
      var rule := ReadRule(g, tm);
      assert PagesApart(o.graph, next, b, g,
        rule, Pagination.PageQuery(d.query, d.pages[i]), PageName(tm, i), rule, Pagination.PageQuery(d.query, d.pages[j]), PageName(tm, j));
      PagesApartKept(o.graph, next, b, o.graph, next, o.next, o.next, g,
        rule, Pagination.PageQuery(d.query, d.pages[i]), PageName(tm, i), rule, Pagination.PageQuery(d.query, d.pages[j]), PageName(tm, j));
    }
  }

  /**
   * Pages of two different paginated triples maps own disjoint identity
   * ranges too, in the order the maps were visited: no two pages in the
   * output share a logical source or a cloned blank node.
   */
  lemma DistinctRulePagesApart(g: seq<Triple>, rows: string -> nat, cores: nat, next: nat,
                               tm1: Term, tm2: Term, i: nat, j: nat)
    requires cores >= 1 && GraphBlanksBelow(g, next) && tm1 != tm2 && i < cores && j < cores
    requires HasObject(g, tm1, LogicalSource) && HasObject(g, tm2, LogicalSource)
    ensures var o := Rewrite(g, rows, cores, next);
      var rule1, rule2 := ReadRule(g, tm1), ReadRule(g, tm2);
      var d1, d2 := Decide(g, rule1, rows, cores), Decide(g, rule2, rows, cores);
      d1.Paginate? && d2.Paginate? ==>
        || PagesApart(o.graph, next, o.next, g,
             rule1, Pagination.PageQuery(d1.query, d1.pages[i]), PageName(tm1, i),
             rule2, Pagination.PageQuery(d2.query, d2.pages[j]), PageName(tm2, j))
        || PagesApart(o.graph, next, o.next, g,
             rule2, Pagination.PageQuery(d2.query, d2.pages[j]), PageName(tm2, j),
             rule1, Pagination.PageQuery(d1.query, d1.pages[i]), PageName(tm1, i))
  {
    var o := Rewrite(g, rows, cores, next);
    var rule1, rule2 := ReadRule(g, tm1), ReadRule(g, tm2);
    var d1, d2 := Decide(g, rule1, rows, cores), Decide(g, rule2, rows, cores);
    if d1.Paginate? && d2.Paginate? {
      var st := RulePass(g, rows, cores, next);
      var first := RulePassApart(g, rows, cores, next, tm1, tm2);
      assert d1.pages[i].index == i && d2.pages[j].index == j;
      if first {
        RulesApartLater(st.out, next, st.next, o.graph, o.next, g, rule1, d1, rule2, d2, i, j);
      } else {
        RulesApartLater(st.out, next, st.next, o.graph, o.next, g, rule2, d2, rule1, d1, j, i);
      }
    }
  }

  /** After the pass over the rules, the pages of two different triples maps are apart, in one order or the other. */
  lemma RulePassApart(g: seq<Triple>, rows: string -> nat, cores: nat, next: nat, tm1: Term, tm2: Term)
    returns (first: bool)
    requires cores >= 1 && GraphBlanksBelow(g, next) && tm1 != tm2
    requires HasObject(g, tm1, LogicalSource) && HasObject(g, tm2, LogicalSource)
    ensures var st := RulesVisited(g, rows, cores, next);
      && (first ==> MapsApart(st.out, next, st.next, g, tm1, tm2, rows, cores))
      && (!first ==> MapsApart(st.out, next, st.next, g, tm2, tm1, rows, cores))
  {
    var st := RulesVisited(g, rows, cores, next);
    first := KeptApartEither(st.out, next, st.next, g, RuleSubjects(g), rows, cores, tm1, tm2);
  }

  /** Two different triples maps of a kept-apart list are apart, in the order they are listed. */
  lemma KeptApartEither(out: set<Triple>, lo: nat, hi: nat, g: seq<Triple>, tms: seq<Term>,
                        rows: string -> nat, cores: nat, tm1: Term, tm2: Term) returns (first: bool)
    requires cores >= 1 && forall t :: t in tms ==> HasObject(g, t, LogicalSource)
    requires RulesKeptApart(out, lo, hi, g, tms, 0, rows, cores)
    requires tm1 in tms && tm2 in tms && tm1 != tm2
    ensures first ==> MapsApart(out, lo, hi, g, tm1, tm2, rows, cores)
    ensures !first ==> MapsApart(out, lo, hi, g, tm2, tm1, rows, cores)
  {
    var j1, j2 := Positions(tms, tm1, tm2);
    first := j1 < j2;
    if first {
      KeptApartPair(out, lo, hi, g, tms, rows, cores, j1, j2, tm1, tm2);
    } else {
      KeptApartPair(out, lo, hi, g, tms, rows, cores, j2, j1, tm2, tm1);
    }
  }

  /** Where two different members of a list sit in it. */
  lemma Positions(tms: seq<Term>, tm1: Term, tm2: Term) returns (j1: nat, j2: nat)
    requires tm1 in tms && tm2 in tms && tm1 != tm2
    ensures j1 < |tms| && j2 < |tms| && j1 != j2 && tms[j1] == tm1 && tms[j2] == tm2
  {
    j1 :| 0 <= j1 < |tms| && tms[j1] == tm1;
    j2 :| 0 <= j2 < |tms| && tms[j2] == tm2;
  }

  lemma KeptApartPair(out: set<Triple>, lo: nat, hi: nat, g: seq<Triple>, tms: seq<Term>,
                      rows: string -> nat, cores: nat, j1: nat, j2: nat, tm1: Term, tm2: Term)
    requires cores >= 1 && forall t :: t in tms ==> HasObject(g, t, LogicalSource)
    requires RulesKeptApart(out, lo, hi, g, tms, 0, rows, cores) && j1 < j2 < |tms|
    requires tms[j1] == tm1 && tms[j2] == tm2
    ensures MapsApart(out, lo, hi, g, tm1, tm2, rows, cores)
  {
  }

  /** The output only uses blank nodes below the final counter, so later clones stay disjoint from it. */
  lemma OutputFresh(g: seq<Triple>, rows: string -> nat, cores: nat, next: nat)
    requires cores >= 1 && GraphBlanksBelow(g, next)
    ensures next <= Rewrite(g, rows, cores, next).next
    ensures SetBlanksBelow(Rewrite(g, rows, cores, next).graph, Rewrite(g, rows, cores, next).next)
  {
    var st := RulePass(g, rows, cores, next);
  }

  /** The pages of one triples map get distinct names. */
  lemma PageNamesDistinct(tm: Term, i: nat, j: nat)
    ensures PageName(tm, i) == PageName(tm, j) <==> i == j
  {
    var a := TermText(tm) + "_Page";
    if PageName(tm, i) == PageName(tm, j) {
      var si, sj := Decimal.NatToString(i + 1), Decimal.NatToString(j + 1);
      assert a + si == a + sj;
      assert si == (a + si)[|a|..];
      assert sj == (a + sj)[|a|..];
      Decimal.PrintedInjective(i + 1, j + 1);
    }
  }

  /** The carry-over pass only ever sees carried-over triples maps and their subject and predicate-object maps. */
  lemma CarryOverOnlyRules(g: seq<Triple>, rows: string -> nat, cores: nat, next: nat, u: Term)
    requires cores >= 1
    ensures u in Rewrite(g, rows, cores, next).carryOver ==> exists t :: QueuedBy(g, rows, cores, t, u)
  {
    if u in Rewrite(g, rows, cores, next).carryOver {
      var tms := RuleSubjects(g);
      var st := RulePass(g, rows, cores, next);
      var j :| 0 <= j < |tms| && QueuedBy(g, rows, cores, tms[j], u);
    }
  }
}

=== FILE: wrappers.dfy ===
/** The optional value used throughout the model. */
module Wrappers {

  /** Either nothing or one value, in place of Python's `None`. */
  datatype Option<+T> = None | Some(value: T)
}
